=== FILE: README.md ===
# Schoolbook library: a verified Dafny model

This project models the logic of a small digital library of Bengali-medium
school textbooks. The library has three parts:

- a React client that lets readers browse by grade, search, open a book's
  detail page and read its PDF in a custom reader with pinch zoom;
- an administration panel that adds, edits, deletes and bulk-uploads books;
- a Google Apps Script web app that keeps the catalog as rows of a
  spreadsheet.

Every rule of that system that can be stated without a browser is a pure
Dafny function here, each with a contract, together with lemmas that relate
the operations to each other.

Modules follow the program's structure:

| module | file | models |
|---|---|---|
| `DriveLinks` | drive_links.dfy | Drive id extraction and the preview, download and proxied links (`constants.ts`) |
| `Catalog` | catalog.dfy | the `Book` and `Category` records, the grade list `CLASSES`, the bundled catalog `MOCK_BOOKS`, lookup by id |
| `Viewer` | viewer.dfy | the reader's state and one transition per handler (`pages/PdfViewer.tsx`) |
| `ReaderPage` | reader_page.dfy | opening the reader route: book lookup, document link, initial state |
| `SheetStore` | sheet_store.dfy | the spreadsheet backend's request handler over a header row plus 10-column rows |
| `Api` | api.dfy | configuration defaults, sanitising fetched rows, write envelopes and their success rule |
| `BookStore` | book_store.dfy | the catalog provider: live list or bundled fallback |
| `BookListPage`, `SearchPage`, `DetailsPage` | book_list_page.dfy, search_page.dfy, details_page.dfy | the grade filter, free-text search, detail-page lookup and navigation, Bengali numerals |
| `AdminPanel` | admin.dfy | login, the admin list filter, URL cleaning, the add/edit form, delete, bulk upload of the bundled catalog |
| `Pipeline` | pipeline.dfy | the end-to-end round trip from the admin form, through the sheet, back to the catalog |
| `Wrappers`, `Seqs`, `Strings`, `Bangla` | wrappers.dfy, seqs.dfy, strings.dfy, bangla.dfy | `Option`; order-preserving filter, first-match search and reversal; JavaScript `includes`/`indexOf`, ASCII `toLowerCase` and decimal numbers; the Bengali digit table |

I/O, clocks and randomness are parameters:

- the stored settings (`localStorage`);
- what an awaited request produced (a reply, or whether the transport failed);
- `Date.now()`, `Math.random()` and `Utilities.getUuid()`, as numbers or functions passed in;
- the answer of a confirmation dialog;
- the window and container widths;
- the two-finger distance.

Each handler is one complete transition from the state before to the state
after.

How the code behaves at its edges, and how the model treats each case:

- **Pinch with zero start distance.** The pinch ratio divides by the start
  distance with no zero guard (`pages/PdfViewer.tsx:128`). The model makes a
  positive start distance a precondition of `Viewer.TouchMove`.
- **Fetched fields.** They are not checked by type. Each field except the id
  is replaced by its default exactly when it is falsy in JavaScript (empty, 0,
  false or null); any other value is rendered as text, so the number 10 becomes
  `"10"`. The id follows its own rule: any non-null id is rendered, so an id
  of `0` or `false` is kept as `"0"` or `"false"`, and only a missing, null or
  empty id gets the random id.
- **Dropped and optional fields on fetch.** `subCategory` is dropped, and
  `publishYear` is left undefined when falsy.
- **Null elements.** A `null` element in the fetched array makes the whole
  fetch yield the empty list.
- **Drive mode has no load cycle.** Switching the reader to the drive viewer
  changes only the display mode. It does not start a new load cycle.
- **Pages read the bundled catalog.** The grade list, search, detail and reader
  pages read the bundled catalog, never the provider's live list. Only the
  administration panel shows the live list.
- **Duplicate ids.** Ids are not unique. Lookup, update and
  delete act on the first entry with a given id.

Consequences of the code that the model makes visible:

- **Third Drive pattern never decides.** The `/open?id=` pattern is never
  decisive, because the `id=` pattern before it always matches wherever it
  does (`DriveLinks.OpenPatternIsSubsumed`).
- **Configured URL is never empty.** The configured endpoint URL can never be
  empty (`Api.GetApiUrl`). So the "no URL" branches of the fetch, of the
  catalog provider and of the admin panel's auto-open settings are
  unreachable (`AdminPanel.SettingsNeverAutoOpen`, `Pipeline.ConfiguredLoad`).
- **Stale pinch transform.** A touch start does not reset the visual
  transform. A `scale(r)` left on screen by an abandoned gesture is committed
  by the next two-finger touch that ends without moving
  (`Viewer.StaleTransformIsCommitted`).
- **Redundant search disjunct.** The search page's exact-grade test is implied
  by its `"class " + grade` test (`SearchPage.ExactGradeIsRedundant`).
- **Delete with an empty id.** It removes the first row whose id cell is
  empty, which the read action already skips, and reports success
  (`SheetStore.DeleteThenRead`).

## Model

| member | source | states |
|---|---|---|
| DriveLinks.FirstMatchFrom | constants.ts:12 | the leftmost position at or after `from` where the pattern's literal is followed by an id character; None exactly when there is none |
| DriveLinks.IdRun | constants.ts:6-8 | the capture group is greedy: the run read is made of id characters, sits at `k` in the input and is followed by the end or a non-id character |
| DriveLinks.IdRunReads | constants.ts:6-8 | any maximal run of id characters at `k` is exactly what `IdRun` reads |
| DriveLinks.MatchPattern | constants.ts:12-13 | a pattern yields a non-empty id of `[A-Za-z0-9_-]` exactly when it matches somewhere, and the id is the greedy run after the leftmost match |
| DriveLinks.GetDriveId | constants.ts:4-18 | the first matching pattern decides: `/file/d/` wins over `id=`, and the result is null exactly when no pattern matches |
| DriveLinks.OpenPatternIsSubsumed | constants.ts:7-8 | wherever `/open?id=X` matches, `id=` matches too |
| DriveLinks.GetDriveIdTwoPatterns | constants.ts:5-17 | the id is decided by the first two patterns alone |
| DriveLinks.NoFileMatchInHost | constants.ts:6 | `/file/d/` cannot match inside the `https://drive.google.com` host part |
| DriveLinks.CanonicalLinkId | constants.ts:6-14 | a `https://drive.google.com/file/d/ID…` link yields `ID` when the character after it is not an id character |
| DriveLinks.EmbedUrl | constants.ts:21-27 | `getEmbedUrl`: the preview link of the extracted id when there is one, the input unchanged otherwise |
| DriveLinks.EmbedUrlShape | constants.ts:21-27 | the preview link is `https://drive.google.com/file/d/{id}/preview` when an id is found, otherwise the input unchanged |
| DriveLinks.EmbedUrlKeepsId | constants.ts:21-27 | extracting the id again from the preview link gives the original link's id |
| DriveLinks.EmbedUrlIdempotent | constants.ts:21-27 | building the preview link twice gives the same link |
| DriveLinks.DownloadLink | constants.ts:30-36 | the download link exists exactly when an id exists and is the `uc?export=download&id=` URL of that id |
| DriveLinks.ProxiedPdfUrl | constants.ts:40-44 | the proxied link exists exactly when the download link exists and is the proxy prefix followed by the encoded download link |
| DriveLinks.ViewLinkExample | constants.ts:21-36 | for every id, a `/file/d/ID/view` sharing link gives id `ID`, the `/file/d/ID/preview` link and the `uc?export=download&id=ID` link |
| Catalog.ClassNumeralIsBangla | constants.ts:48 | the numeral table's entry i spells i+1 in Bengali digits |
| Catalog.ClassesShape | constants.ts:46-50 | twelve grades; grade i has id `class-{i+1}`, a value that reads as i+1, and a label that is the grade word followed by that value in Bengali digits |
| Catalog.ClassValuesDistinct | constants.ts:49 | no two grades filter on the same value |
| Catalog.MockBooksWellFormed | constants.ts:53-138 | the bundled catalog has ten books with pairwise distinct ids |
| Catalog.FindById | pages/BookDetails.tsx:10 | the lookup returns a book with that id from the list, namely the first one; it is absent exactly when no entry has the id |
| Catalog.FindByIdUnique | pages/BookDetails.tsx:10 | among distinct ids, looking up an entry's id finds that entry |
| Viewer.ClampScale | pages/PdfViewer.tsx:150 | the committed scale is within [1, 4], equal to the input inside it and to the nearer bound outside |
| Viewer.LastPage | pages/PdfViewer.tsx:89 | `numPages \|\| 1`: the page count when known and non-zero, 1 otherwise |
| Viewer.ChangePage | pages/PdfViewer.tsx:88-90 | the page stays in [1, numPages or 1], moves by exactly the offset when that stays in range and sticks to the nearer end otherwise; before the count is known it is 1; nothing else changes |
| Viewer.ZoomIn | pages/PdfViewer.tsx:157 | the scale rises by exactly 0.25 unless capped at 4, and stays in [1, 4] |
| Viewer.ZoomOut | pages/PdfViewer.tsx:158 | the scale falls by exactly 0.25 unless floored at 1, and stays in [1, 4] |
| Viewer.ZoomButtonsStayOnGrid | pages/PdfViewer.tsx:157-158 | from 1.0, any sequence of button presses leaves the scale on the grid 1 + k/4 inside [1, 4] |
| Viewer.Rotate | pages/PdfViewer.tsx:206 | a press turns 90° clockwise, from 270 back to 0, so the rotation stays in {0, 90, 180, 270} and always changes; nothing else changes |
| Viewer.RotateFourTimes | pages/PdfViewer.tsx:206 | four quarter turns restore the state |
| Viewer.TouchStart | pages/PdfViewer.tsx:105-116 | two contacts record the start distance and the current scale; any other count clears the gesture |
| Viewer.TouchMove | pages/PdfViewer.tsx:118-134 | a two-finger move on the mounted content sets the visual ratio current/start; the committed scale never changes |
| Viewer.TouchEnd | pages/PdfViewer.tsx:136-154 | with a gesture and mounted content: commits clamp(start scale × ratio), with ratio 1 when no transform is set, and clears transform and gesture; otherwise a no-op |
| Viewer.PinchCommit | pages/PdfViewer.tsx:105-154 | a full start/move/end pinch from d0 to d1 commits clamp(scale × d1/d0) and leaves no gesture behind |
| Viewer.AbandonedPinchCommitsNothing | pages/PdfViewer.tsx:113-114 | a touch start with other than two fingers, then an end, leaves the scale unchanged |
| Viewer.StaleTransformIsCommitted | pages/PdfViewer.tsx:105-150 | a transform left from an abandoned gesture is committed by the next two-finger start and end |
| Viewer.Resize | pages/PdfViewer.tsx:55-66 | in custom mode a width change of more than 10 refits to width − 32 (window < 640) or − 64 and records the width; otherwise nothing changes |
| Viewer.ResizeIdempotent | pages/PdfViewer.tsx:59-64 | the same measurement twice refits at most once |
| Viewer.LoadSuccess | pages/PdfViewer.tsx:76-80 | sets the page count, ends loading and clears the error, nothing else |
| Viewer.LoadError | pages/PdfViewer.tsx:82-86 | ends loading, sets the error text and unmounts the content |
| Viewer.OpenDriveViewer | pages/PdfViewer.tsx:240 | the error screen's button switches custom mode to the drive viewer; elsewhere it has no effect |
| Viewer.OpenCustomReader | pages/PdfViewer.tsx:174 | the drive viewer's button switches back to custom mode |
| Viewer.FallbackRoundTrip | pages/PdfViewer.tsx:163-246 | after a load error, drive viewer and back returns to the same error state, with the content still unmounted |
| Viewer.Init | pages/PdfViewer.tsx:31-49 | a fresh reader is in custom mode on page 1 of a document with an unknown page count, at scale 1, unrotated, loading, without error, sized to the window, with no gesture and no transform |
| Viewer.InitValid | pages/PdfViewer.tsx:35-41 | the initial state satisfies the bounds every handler preserves, with its scale on the button zoom grid |
| Viewer.Step | pages/PdfViewer.tsx:55-246 | an event whose element is not on screen changes nothing; no event changes which document is shown; every well-formed event keeps the reader's bounds |
| Viewer.StepValid | pages/PdfViewer.tsx:88-158 | every handler keeps page ≥ 1, scale in [1, 4], rotation a quarter turn and a recorded gesture's distance positive |
| Viewer.RunValid | pages/PdfViewer.tsx:88-158 | any sequence of events keeps those bounds, for button and pinch zoom alike |
| ReaderPage.Open | pages/PdfViewer.tsx:27-41 | the reader opens exactly when the catalog it searches (the bundled one in the app) has a book with that id, has a document exactly when the book's link yields a Drive id, and starts at page 1, scale 1, rotation 0, loading, no error |
| ReaderPage.OpenedReaderValid | pages/PdfViewer.tsx:35-41 | an opened reader starts inside the bounds every handler preserves |
| ReaderPage.CanonicalLinkHasDocument | pages/PdfViewer.tsx:27-28 | a book with a canonical `/file/d/ID` link gets a document |
| SheetStore.Action | google_apps_script.js:50 | the request's non-empty `action` field, or `read` when it is missing or empty; never empty |
| SheetStore.Merge | google_apps_script.js:45-49 | body fields override query parameters of the same key; every other key keeps its parameter value; no other keys appear |
| SheetStore.DefaultActionIsRead | google_apps_script.js:50-53 | without an action (or with an empty one) the request is a read that leaves the sheet unchanged |
| SheetStore.BodyActionWins | google_apps_script.js:45-50 | an action in the POST body wins over the query parameter |
| SheetStore.MissingSheetGetsHeader | google_apps_script.js:38-43 | a missing sheet is created with the header row before the action runs |
| SheetStore.Entries | google_apps_script.js:59-78 | the read never emits more entries than there are data rows, and never an entry with an empty id |
| SheetStore.EntriesMembers | google_apps_script.js:59-78 | an entry is emitted exactly for each data row with a non-empty id cell |
| SheetStore.EntriesAppend | google_apps_script.js:59-78 | reading two runs of rows gives the two reads concatenated, so order is kept |
| SheetStore.EntriesAround | google_apps_script.js:59-78 | the read splits around any row |
| SheetStore.ReadBooks | google_apps_script.js:53-81 | the header row is skipped; a sheet with only the header reads as empty |
| SheetStore.NewRow | google_apps_script.js:85-96 | the id is the given id or a generated one; each of the next eight columns is the field named by the header or `''`; the last is the timestamp |
| SheetStore.Create | google_apps_script.js:84-99 | exactly one row is appended, the existing rows are untouched, and the response carries the new row's id |
| SheetStore.CreateThenRead | google_apps_script.js:84-97 | after a create, the read is the previous read plus the new entry at the end |
| SheetStore.SeedRows | google_apps_script.js:113-124 | one row per seeded book, in order, with its own generated id |
| SheetStore.Seed | google_apps_script.js:102-131 | the sheet becomes the header plus one row per seeded book, and the count reported is the number of books |
| SheetStore.FirstRowWithId | google_apps_script.js:142-143 | the first data row whose id cell equals the id; None exactly when there is none |
| SheetStore.UpdateRow | google_apps_script.js:150-156 | exactly the provided fields among title … description are overwritten; id, publishYear and createdAt are never touched |
| SheetStore.Update | google_apps_script.js:134-164 | without an id the request fails; otherwise only the first matching row changes; `not_found` leaves the sheet unchanged |
| SheetStore.UpdateThenReadLength | google_apps_script.js:134-164 | an update never changes the number of books read |
| SheetStore.Delete | google_apps_script.js:167-178 | removes exactly the first row with the id and reports success; with no match, `not_found` and the sheet unchanged |
| SheetStore.DeletedReads | google_apps_script.js:171-173 | removing a data row shortens the read by exactly one when its id cell is non-empty, and leaves the read unchanged otherwise |
| SheetStore.DeleteThenRead | google_apps_script.js:167-178 | a successful delete of a non-empty id shortens the read by one; a delete of the empty id leaves the read unchanged |
| SheetStore.HandleRequest | google_apps_script.js:29-185 | a body that is not JSON yields the error status; otherwise `read`, `create`, `reset_and_seed`, `update` and `delete` go to their actions on the existing sheet (or a fresh header-only one) and any other action returns nothing; the header row survives every action; read, error, `not_found` and unknown actions leave the rows unchanged |
| Api.StoredOr | services/api.ts:9 | the stored value when it is set and non-empty, otherwise the fallback |
| Api.GetApiUrl | services/api.ts:9 | the stored URL or the default; never empty |
| Api.GetAdminPassword | services/api.ts:12 | the stored password or `admin123`; never empty |
| Api.TruthyStrNonEmpty | services/api.ts:33-39 | a truthy value never renders as the empty string |
| Api.TextOr | services/api.ts:33-38 | a truthy field is rendered as non-empty text; a missing or falsy one gives the fallback |
| Api.IdOf | services/api.ts:32 | a non-null id with non-empty text is kept as that text, `0` and `false` included; a missing, null or empty id gives the random id |
| Api.OptionalText | services/api.ts:39 | a truthy field is kept as non-empty text; a missing or falsy one is undefined |
| Api.Sanitize | services/api.ts:31-40 | each of title, subject, grade, thumbnail, link and description is the text of its field when truthy and otherwise `Untitled`, `General`, `1`, `''`, `''`, `''`; publishYear is its text when truthy and otherwise undefined; the id follows the id rule; subCategory is dropped; title, subject and grade are never empty |
| Api.FalsyFieldsDefault | services/api.ts:33-39 | whatever the other fields hold, a field set to `''`, `0`, `false` or `null` reads as its default |
| Api.NonTextFields | services/api.ts:32-35 | a grade given as the number 10 reads as `"10"` and a title of `0` as `Untitled`, while an id of `0` or `false` is kept as text |
| Api.SanitizeDefaults | services/api.ts:32-39 | an element without fields (an empty object, a string or a number) gets `Untitled`, `General`, grade `1`, empty links and description, and the random id |
| Api.SanitizeKeepsText | services/api.ts:31-40 | a row of non-empty strings comes through unchanged apart from the dropped subCategory |
| Api.FetchBooks | services/api.ts:15-45 | a failed request, a non-JSON or non-array reply, or a null element gives the empty list; otherwise one sanitised book per element, in order |
| Api.FetchedBooksComplete | services/api.ts:31-40 | every fetched book has an id, title, subject and grade |
| Api.AddBook | services/api.ts:74-76 | a create throws only without a URL, posting nothing; otherwise it posts `{action: 'create', ...book}` and reports success exactly when the transport did not fail |
| Api.UpdateBook | services/api.ts:78-80 | an update throws only without a URL, posting nothing; otherwise it posts `{action: 'update', ...book}` and reports success exactly when the transport did not fail |
| Api.DeleteBook | services/api.ts:82-84 | a delete throws only without a URL, posting nothing; otherwise it posts exactly `{action: 'delete', id}` and reports success exactly when the transport did not fail |
| Api.SendToSheet | services/api.ts:48-72 | an empty URL throws before anything is posted; otherwise the payload is posted unchanged and the write reports true exactly when the transport did not fail |
| Api.SendIgnoresPayload | services/api.ts:57-67 | the payload, and so the server's reaction to it, cannot change the reported outcome |
| Api.ConfiguredSendNeverThrows | services/api.ts:49-50 | with the configured URL a write never throws and always posts its payload |
| Api.BookFields | services/api.ts:75 | the serialised book carries each required field with its value; subCategory, description and publishYear appear, with their values, exactly when set; no other key, and no `action` key |
| Api.Envelope | services/api.ts:75 | `{action, ...book}`: the action plus exactly the book's fields, unchanged |
| Api.DeletePayload | services/api.ts:83 | the delete payload is exactly `{action: 'delete', id}` |
| Api.WritesReportTransportOnly | services/api.ts:74-84 | create, update and delete each report success exactly when the transport did not fail; create and update post their action name with exactly the book's serialised fields, and delete posts its action name with the id alone |
| BookStore.InitialState | context/BookContext.tsx:16-18 | the provider starts on the ten bundled books, not live, not loading |
| BookStore.LoadBooks | context/BookContext.tsx:20-47 | an empty URL gives the bundled books without fetching; the list is live exactly when the URL is set and the fetch returned books, and is then the fetched list reversed; otherwise the bundled books; the list is never empty; a load with a URL ends idle |
| BookStore.LoadReplaces | context/BookContext.tsx:20-47 | the result of a load does not depend on the list shown before |
| BookStore.LiveIsNewestFirst | context/BookContext.tsx:31-34 | a live list shows the last sheet row first, and reversing it again gives the sheet order |
| BookStore.LoadEndsIdle | context/BookContext.tsx:44-46 | every completed load ends with loading off |
| BookListPage.ByClass | pages/BookList.tsx:11 | exactly the books whose grade equals the route parameter; none without one |
| BookListPage.ByClassKeepsOrder | pages/BookList.tsx:11 | the listed books keep catalog order, with every copy of a book of the grade and none of any other |
| BookListPage.ToBanglaDigit | pages/BookList.tsx:13-16 | undefined gives `""`, and the length is kept |
| BookListPage.ToBanglaDigitAgrees | pages/BookList.tsx:13-16 | the page's conversion is the shared digit conversion, with undefined read as empty |
| BookListPage.CountLabel | pages/BookList.tsx:37 | the count is written in Bengali digits, as many as the decimal rendering has (no padding), and reads back as the number of listed books |
| Bangla.BanglaDigitsAreConsecutive | pages/BookList.tsx:15 | the digit table holds U+09E6 … U+09EF in order |
| Bangla.ToBangla | pages/BookList.tsx:15 | each ASCII digit becomes the Bengali digit of the same value, every other character is kept, the length is kept |
| Bangla.ToBanglaRoundTrip | pages/BookDetails.tsx:25-27 | reading the Bengali digits back restores any string that had none |
| Bangla.ToBanglaIdempotent | pages/BookDetails.tsx:25-27 | converting twice changes nothing more |
| Bangla.BanglaNumeral | pages/SearchResults.tsx:23-25 | a number is written with Bengali digits only, as many as its decimal digits |
| Bangla.BanglaNumeralReadsBack | pages/SearchResults.tsx:23-25 | a number written in Bengali digits reads back as that number |
| SearchPage.Query | pages/SearchResults.tsx:10 | the `q` parameter when given, the empty query when missing |
| SearchPage.Matches | pages/SearchResults.tsx:13-20 | an empty query matches every book, and a query equal to the grade matches it |
| SearchPage.Search | pages/SearchResults.tsx:10-21 | a missing or empty query lists every book; otherwise exactly the books whose lowercased title or subject contains the lowercased query, whose `class {grade}` contains it, or whose grade equals it |
| SearchPage.SearchKeepsOrder | pages/SearchResults.tsx:12-21 | the results keep catalog order, with every copy of a matching book and none of any other |
| SearchPage.ExactGradeIsRedundant | pages/SearchResults.tsx:16-19 | the exact-grade test adds nothing to the `class {grade}` test |
| SearchPage.ResultCountLabel | pages/SearchResults.tsx:23-42 | the result count is written in Bengali digits, as many as the decimal rendering has (no padding), and reads back as the number of results |
| DetailsPage.Lookup | pages/BookDetails.tsx:10 | a found book has the route id and is bundled; none is found exactly when no bundled book has the id |
| DetailsPage.BackTarget | pages/BookDetails.tsx:13-19 | back goes to the grade list when the book exists and home otherwise, and that grade list lists the book |
| DetailsPage.BackListsTheBook | pages/BookDetails.tsx:13-19 | from a found book, back lands on a list containing it |
| DetailsPage.ReaderShowsSameBook | pages/BookDetails.tsx:21-23 | the read button goes to the reader route, which opens exactly when this page found the book |
| DetailsPage.ReadTarget | pages/BookDetails.tsx:21-23 | the read button goes to `/read/{id}` of the book shown |
| DetailsPage.GradeHeading | pages/BookDetails.tsx:67 | the heading is the grade word followed by the grade with each ASCII digit replaced by the Bengali digit of the same value and every other character kept, so it reads back as the grade |
| DetailsPage.DescriptionText | pages/BookDetails.tsx:79 | a non-empty description is shown as is; otherwise the fixed fallback text |
| DetailsPage.GradeHeadingMatchesTaxonomy | pages/BookDetails.tsx:67 | for a book of one of the twelve grades, the heading equals that grade's label |
| AdminPanel.Mount | pages/Admin.tsx:68-72 | the URL field starts with the configured URL, logged out, not editing, the form at its initial values |
| AdminPanel.SettingsNeverAutoOpen | pages/Admin.tsx:70-71 | the settings panel never opens by itself |
| AdminPanel.Login | pages/Admin.tsx:74-81 | the panel is unlocked exactly when the input equals the configured password; nothing else changes |
| AdminPanel.DefaultPasswordOnly | pages/Admin.tsx:76 | with no stored password, only `admin123` unlocks |
| AdminPanel.AdminMatches | pages/Admin.tsx:59-66 | an empty term matches every book |
| AdminPanel.AdminMatchIgnoresCase | pages/Admin.tsx:60 | the filter ignores the case of the term |
| AdminPanel.FilterBooks | pages/Admin.tsx:59-66 | exactly the books whose lowercased title or subject, or raw id, contains the lowercased term; an empty term keeps every book |
| AdminPanel.FilterBooksKeepsOrder | pages/Admin.tsx:59-66 | the admin list keeps catalog order, and keeps every copy of a matching entry and none of a non-matching one |
| AdminPanel.CleanUrl | pages/Admin.tsx:84-87 | a URL containing `/exec` is cut just after its first `/exec`, giving a prefix of the input; any other URL is unchanged |
| AdminPanel.CleanUrlEndsAtFirstExec | pages/Admin.tsx:85-86 | in a cleaned URL the first `/exec` is the one at its end |
| AdminPanel.CleanUrlKeepsExec | pages/Admin.tsx:85-86 | a URL containing `/exec` still contains it after cleaning |
| AdminPanel.CleanUrlIdempotent | pages/Admin.tsx:84-87 | cleaning twice gives the same URL |
| AdminPanel.ConfigSave | pages/Admin.tsx:83-94 | the URL field cut after its first `/exec` (or unchanged without one) is both stored and shown, with a success message; it is a prefix still containing `/exec`; nothing else changes |
| AdminPanel.EmptySaveRestoresDefault | pages/Admin.tsx:88 | saving an empty field makes the configured URL the built-in one again |
| AdminPanel.PopulateForm | pages/Admin.tsx:96-111 | edit mode on the book's id, with its fields in the form, a missing description becoming empty; login, URL field, settings and search term unchanged |
| AdminPanel.CancelEdit | pages/Admin.tsx:113-117 | leaves edit mode, resets the form, clears the message; nothing else changes |
| AdminPanel.Record | pages/Admin.tsx:130-138 | the submitted record keeps the edited id when editing and otherwise gets the timestamp id; title, subject, grade, link and description come from the form; an empty thumbnail becomes the placeholder and any other is kept |
| AdminPanel.Submit | pages/Admin.tsx:119-161 | an empty URL field gives an error, opens settings and sends nothing; otherwise it sends an update exactly when editing and a create otherwise, posting that envelope of the form's record; success resets the form and schedules a refresh; failure only sets the error |
| AdminPanel.EditRoundTrip | pages/Admin.tsx:96-146 | editing a book and saving unchanged sends an update of that book with its own id, dropping only subCategory and publishYear |
| AdminPanel.SubmitResetsOnSuccess | pages/Admin.tsx:148-151 | after a successful submit the form is ready for a new book |
| AdminPanel.HandleDelete | pages/Admin.tsx:163-178 | nothing happens unless confirmed; otherwise a delete of the id is sent, posting `{action: 'delete', id}`, and the outcome follows the transport |
| AdminPanel.Upload | pages/Admin.tsx:195-196 | each uploaded book is the bundled one with only its id replaced by timestamp followed by index |
| AdminPanel.UploadAll | pages/Admin.tsx:191-208 | one upload per book in order, each posting the create envelope of that upload; the count is the number of writes that went through and is positive exactly when one did |
| AdminPanel.CreateBodies | pages/Admin.tsx:200 | what each `addBookToSheet` of the sync posts is the create envelope of its upload |
| AdminPanel.SyncMockBooks | pages/Admin.tsx:180-217 | an empty URL field gives an error and no uploads; no confirmation, nothing; otherwise all ten books are uploaded, one create envelope posted per book, and the outcome is success, with a refresh, exactly when at least one write went through |
| Pipeline.ReadReply | google_apps_script.js:80 | the read response is an array with one object per entry |
| Pipeline.CreatePayloadFields | services/api.ts:74-76 | the create payload is a `create` action carrying the record's fields, with `''` for the absent subCategory and publishYear |
| Pipeline.CreatedRowEntry | google_apps_script.js:85-96 | the row created from a form record reads back as that record's fields in column order |
| Pipeline.EntrySanitizesBack | services/api.ts:31-40 | the client's sanitiser recovers the form record from its sheet entry |
| Pipeline.CreateRequestAppendsEntry | google_apps_script.js:84-98 | a create request for a form record makes the next read end with its entry |
| Pipeline.LastEntryShownFirst | context/BookContext.tsx:30-34 | a read ending with a form record's entry loads that record first, live |
| Pipeline.AddedBookShownFirst | pages/Admin.tsx:119-161 | a book added in the panel is sent as a create; once the sheet has handled the one body the panel posted and the catalog is reloaded, it is the first book shown, with every field the form set |
| Pipeline.ConfiguredLoad | context/BookContext.tsx:20-47 | with the configured URL a load always ends idle, and is live exactly when the reply is a non-empty array without null elements |

## Left out

- AdminPanel: the log-out button, the settings-panel toggle and close button, and the search box with its clear button each only set one field (`authenticated`, `showSettings`, `searchTerm`); they are not modelled as handlers.
- Rendering, routing components, `components/BookCard.tsx`, `components/Header.tsx`, `pages/Home.tsx` and `App.tsx`: presentation only; the routes the pages navigate to are modelled as values.
- The fullscreen toggle of the reader: a platform API with no state the model could check.
- `window.confirm` and `alert`: the dialog's answer is a parameter, and the alert on a wrong password changes no state.
- Message wording, the `isSubmitting` and `isSyncing` flags, the per-upload progress message and the scroll-to-top on small screens: these flip within one handler and are not observable once it completes.
- Timers: the delayed refresh after a write, the 800 ms pause between uploads and the page reload after saving the settings. Each handler's result records whether a refresh was scheduled, not when it runs.
- `handleManualRefresh` and the live/offline indicator of the admin page: they only call or display the catalog provider's load.
- `setAdminPassword`: no screen of the core calls it; the stored password is a parameter of the login.
- The script lock of the backend and races between overlapping asynchronous loads: the model is sequential.
- `Math.hypot` and `parseFloat` of the CSS transform: the reader takes distances directly and keeps the visual ratio as a number, absent when the transform is unset.
- Viewer.TouchMove: requires a positive start distance instead of modelling JavaScript's Infinity and NaN on a zero distance.
- DriveLinks.ProxiedPdfUrl: `encodeURIComponent` is an opaque function parameter.
- Strings.Lower: lower-cases ASCII letters only; other scripts, Bengali included, have no case.
- SheetStore.HandleRequest: sheet cells are strings. The sheet's conversion of numeric-looking text to numbers, and the loose `==` of the id comparisons, are not modelled.
- SheetStore.HandleRequest: the `books` array of a seed request travels only in a JSON body. It is not accepted as a query parameter.
- Api.FetchBooks: a JSON element is modelled as an object of scalar fields, a non-object, or null. Nested values inside fields are not modelled.
- Api.FetchBooks: the cache-busting `?t=` suffix of the request URL is not modelled.
- Api.FetchBooks: JSON numbers are integers here. Fractional numbers, and JavaScript's exponent notation for magnitudes of 1e21 and above, are not modelled.
- SheetStore.HandleRequest: a seed request stamps every row with the same timestamp `now`. The script reads the clock once per row.
- Viewer.Resize: the container width is given as a number, and the initial measurement on mount is the first resize event.

=== FILE: admin.dfy ===
/** The administration panel (`pages/Admin.tsx`): password gate, endpoint
    configuration, the add/edit form, deletion and the one-shot upload of the
    bundled catalog. Each handler is one complete transition; what the awaited
    write returned, the confirmation dialog's answer and the clock are inputs. */
module AdminPanel {
  import opened Wrappers
  import opened Strings
  import opened Catalog
  import Seqs
  import Api

  /** The editable fields of the form (`Partial<Book>` restricted to what the form holds). */
  datatype Form = Form(title: string, subject: string, classLevel: string,
                       thumbnailUrl: string, pdfUrl: string, description: string)

  /** `initialFormState`: everything empty except grade 10. */
  const InitialForm: Form := Form("", "", "10", "", "", "")

  const PlaceholderCover: string := "https://placehold.co/300x400?text=No+Cover"

  /** The tone of the status banner; its wording is not modelled. */
  datatype Tone = Success | Failure | Info

  datatype AdminState = AdminState(
    authenticated: bool,
    scriptUrl: string,          // the URL field, seeded from the stored URL
    showSettings: bool,
    editingId: Option<string>,  // `null` is None
    form: Form,
    message: Option<Tone>,
    searchTerm: string)

  /** A write sent to the sheet endpoint. */
  datatype Write = Create(book: Book) | Update(book: Book) | Remove(id: string)

  /** The result of a handler: the new state, the write it sent (if any), the
      JSON bodies it posted, in order, and whether it scheduled a catalog refresh. */
  datatype Step = Step(state: AdminState, write: Option<Write>, posted: seq<map<string, string>>, refresh: bool)

  /** The body a write call posted, as a list of zero or one bodies. */
  function PostedBy(s: Api.Sent): (r: seq<map<string, string>>)
    ensures s.body.Some? ==> r == [s.body.value]
    ensures s.body.None? ==> r == []
  {
    if s.body.Some? then [s.body.value] else []
  }

  /** The state after mounting: the URL field holds the configured URL, and the
      settings panel auto-opens only when that URL is empty. */
  function Mount(stored: Option<string>): (r: AdminState)
    ensures r.scriptUrl == Api.GetApiUrl(stored)
    ensures !r.authenticated && r.editingId.None? && r.form == InitialForm && r.message.None?
  {
    var url := Api.GetApiUrl(stored);
    AdminState(false, url, url == "", None, InitialForm, None, "")
  }

  /** The configured URL is never empty, so the settings panel never opens by itself. */
  lemma SettingsNeverAutoOpen(stored: Option<string>)
    ensures !Mount(stored).showSettings
  {
  }

  /** `handleLogin`: the input must equal the configured password. */
  function Login(st: AdminState, input: string, storedPassword: Option<string>): (r: AdminState)
    ensures r.authenticated <==> st.authenticated || input == Api.GetAdminPassword(storedPassword)
    ensures r.(authenticated := st.authenticated) == st
  {
    if input == Api.GetAdminPassword(storedPassword) then st.(authenticated := true) else st
  }

  /** Without a stored password exactly the default one opens the panel. */
  lemma DefaultPasswordOnly(st: AdminState, input: string)
    requires !st.authenticated
    ensures Login(st, input, None).authenticated <==> input == Api.DefaultAdminPassword
  {
  }

  /** The admin list filter: case-insensitive on title and subject, exact
      case on the id; an empty term keeps every book. */
  predicate AdminMatches(b: Book, term: string)
    ensures term == "" ==> AdminMatches(b, term)
  {
    ContainsEmpty(Lower(b.title));
    var q := Lower(term);
    Contains(Lower(b.title), q) || Contains(Lower(b.subject), q) || Contains(b.id, q)
  }

  /** The filter ignores the case of the term. */
  lemma AdminMatchIgnoresCase(b: Book, term: string)
    ensures AdminMatches(b, term) == AdminMatches(b, Lower(term))
  {
    LowerIdempotent(term);
  }

  function FilterBooks(books: seq<Book>, term: string): (r: seq<Book>)
    ensures forall i :: 0 <= i < |r| ==> r[i] in books && AdminMatches(r[i], term)
    ensures forall i :: 0 <= i < |books| && AdminMatches(books[i], term) ==> books[i] in r
    ensures term == "" ==> r == books
  {
    var p := (b: Book) => AdminMatches(b, term);
    if term == "" then
      assert forall i :: 0 <= i < |books| ==> p(books[i]) by {
        forall i | 0 <= i < |books| ensures p(books[i]) {
          ContainsEmpty(Lower(books[i].title));
        }
      }
      Seqs.FilterAll(p, books);
      Seqs.Filter(p, books)
    else
      Seqs.Filter(p, books)
  }

  /** The admin list keeps the catalog's order, and every copy of a matching
      entry of a list that repeats entries. */
  lemma FilterBooksKeepsOrder(books: seq<Book>, term: string, b: Book)
    ensures Seqs.IsSubseq(FilterBooks(books, term), books)
    ensures multiset(FilterBooks(books, term))[b] == if AdminMatches(b, term) then multiset(books)[b] else 0
  {
    var p := (x: Book) => AdminMatches(x, term);
    assert FilterBooks(books, term) == Seqs.Filter(p, books);
    Seqs.FilterIsSubseq(p, books);
    Seqs.FilterCount(p, books, b);
  }

  /** `url.split('/exec')[0] + '/exec'` when the URL contains `/exec`: the URL
      cut just after its first `/exec`. */
  function CleanUrl(u: string): (r: string)
    ensures !Contains(u, "/exec") ==> r == u
    ensures Contains(u, "/exec") ==> 5 <= |r| <= |u| && r == u[..|r|] && IndexOf(u, "/exec") == Some(|r| - 5)
  {
    match IndexOf(u, "/exec")
    case Some(i) =>
      assert u[i..i + 5] == "/exec";
      assert u[..i] + "/exec" == u[..i + 5];
      u[..i] + "/exec"
    case None => u
  }

  /** In a cleaned URL the first `/exec` is the one it ends with. */
  lemma CleanUrlEndsAtFirstExec(u: string)
    requires Contains(u, "/exec")
    ensures IndexOf(CleanUrl(u), "/exec") == Some(|CleanUrl(u)| - 5)
  {
    var r := CleanUrl(u);
    var k := |r| - 5;
    assert OccursAt("/exec", r, k) by {
      assert r[k..k + 5] == u[k..k + 5];
    }
    forall j: nat | j < k
      ensures !OccursAt("/exec", r, j)
    {
      assert !OccursAt("/exec", u, j);
      if j + 5 <= |r| {
        assert r[j..j + 5] == u[j..j + 5];
      }
    }
    var m := IndexOf(r, "/exec");
    assert m.Some?;
    assert !(m.value < k);
    assert !(k < m.value);
  }

  /** Cleaning keeps the `/exec` suffix it cuts at. */
  lemma CleanUrlKeepsExec(u: string)
    ensures Contains(u, "/exec") ==> Contains(CleanUrl(u), "/exec")
  {
    if Contains(u, "/exec") {
      CleanUrlEndsAtFirstExec(u);
    }
  }

  /** A cleaned URL is left alone by a second cleaning. */
  lemma CleanUrlIdempotent(u: string)
    ensures CleanUrl(CleanUrl(u)) == CleanUrl(u)
  {
    if Contains(u, "/exec") {
      CleanUrlEndsAtFirstExec(u);
    }
  }

  /** `handleConfigSave`: returns the value written to storage and the new
      state (the page then reloads). */
  function ConfigSave(st: AdminState): (r: (string, AdminState))
    ensures r.0 == CleanUrl(st.scriptUrl)
    ensures r.0 == r.1.scriptUrl && r.1.message == Some(Success)
    ensures r.1.(scriptUrl := st.scriptUrl, message := st.message) == st
    ensures Contains(st.scriptUrl, "/exec") ==> r.0 <= st.scriptUrl && Contains(r.0, "/exec")
    ensures !Contains(st.scriptUrl, "/exec") ==> r.0 == st.scriptUrl
  {
    var clean := CleanUrl(st.scriptUrl);
    CleanUrlKeepsExec(st.scriptUrl);
    (clean, st.(scriptUrl := clean, message := Some(Success)))
  }

  /** Saving an empty field stores the empty string, which reads back as the
      built-in URL. */
  lemma EmptySaveRestoresDefault(st: AdminState)
    requires st.scriptUrl == ""
    ensures Api.GetApiUrl(Some(ConfigSave(st).0)) == Api.DefaultApiUrl
  {
  }

  /** `populateForm`: edit mode on the chosen book. */
  function PopulateForm(st: AdminState, b: Book): (r: AdminState)
    ensures r.editingId == Some(b.id) && r.message == Some(Info)
    ensures r.form == Form(b.title, b.subject, b.classLevel, b.thumbnailUrl, b.pdfUrl, b.description.GetOr(""))
    ensures r.(editingId := st.editingId, form := st.form, message := st.message) == st
  {
    st.(editingId := Some(b.id),
        form := Form(b.title, b.subject, b.classLevel, b.thumbnailUrl, b.pdfUrl, b.description.GetOr("")),
        message := Some(Info))
  }

  /** `cancelEdit` */
  function CancelEdit(st: AdminState): (r: AdminState)
    ensures r.editingId.None? && r.form == InitialForm && r.message.None?
    ensures r.(editingId := st.editingId, form := st.form, message := st.message) == st
  {
    st.(editingId := None, form := InitialForm, message := None)
  }

  /** `editingId` is truthy: set and not the empty string. */
  predicate Editing(st: AdminState)
  {
    st.editingId.Some? && st.editingId.value != ""
  }

  /** The record the form submits; `now` is `Date.now()`. */
  function Record(st: AdminState, now: nat): (b: Book)
    ensures Editing(st) ==> b.id == st.editingId.value
    ensures !Editing(st) ==> b.id == NatToString(now)
    ensures b.title == st.form.title && b.subject == st.form.subject
    ensures b.classLevel == st.form.classLevel && b.pdfUrl == st.form.pdfUrl
    ensures st.form.thumbnailUrl != "" ==> b.thumbnailUrl == st.form.thumbnailUrl
    ensures st.form.thumbnailUrl == "" ==> b.thumbnailUrl == PlaceholderCover
    ensures b.thumbnailUrl != ""
    ensures b.subCategory.None? && b.publishYear.None? && b.description == Some(st.form.description)
  {
    Book(if Editing(st) then st.editingId.value else NatToString(now),
         st.form.title, st.form.subject, st.form.classLevel, None,
         if st.form.thumbnailUrl != "" then st.form.thumbnailUrl else PlaceholderCover,
         st.form.pdfUrl, Some(st.form.description), None)
  }

  /** `handleSubmit`: with an empty URL field nothing is sent; otherwise an
      update in edit mode or a create, to the configured URL. `transportFailed`
      is how the POST went. */
  function Submit(st: AdminState, storedUrl: Option<string>, now: nat, transportFailed: bool): (r: Step)
    ensures st.scriptUrl == "" ==>
              r == Step(st.(message := Some(Failure), showSettings := true), None, [], false)
    ensures st.scriptUrl != "" && Editing(st) ==> r.write == Some(Update(Record(st, now)))
    ensures st.scriptUrl != "" && !Editing(st) ==> r.write == Some(Create(Record(st, now)))
    ensures st.scriptUrl != "" ==>
              r.posted == [Api.Envelope(if Editing(st) then "update" else "create", Record(st, now))]
    ensures st.scriptUrl != "" && !transportFailed ==>
              r.refresh && r.state == st.(form := InitialForm, editingId := None, message := Some(Success))
    ensures st.scriptUrl != "" && transportFailed ==>
              !r.refresh && r.state == st.(message := Some(Failure))
  {
    if st.scriptUrl == "" then
      Step(st.(message := Some(Failure), showSettings := true), None, [], false)
    else
      var book := Record(st, now);
      var url := Api.GetApiUrl(storedUrl);
      var sent := if Editing(st) then Api.UpdateBook(url, book, transportFailed)
                  else Api.AddBook(url, book, transportFailed);
      var write := if Editing(st) then Update(book) else Create(book);
      if sent.result == Api.Returned(true) then
        Step(st.(form := InitialForm, editingId := None, message := Some(Success)), Some(write), PostedBy(sent), true)
      else
        Step(st.(message := Some(Failure)), Some(write), PostedBy(sent), false)
  }

  /** Editing a book and saving it unchanged sends an update of that book with
      its own id; only `subCategory` and `publishYear`, which the form does not
      hold, are dropped, and a missing description becomes empty. */
  lemma EditRoundTrip(st: AdminState, b: Book, storedUrl: Option<string>, now: nat, transportFailed: bool)
    requires st.scriptUrl != "" && b.id != "" && b.thumbnailUrl != ""
    ensures Submit(PopulateForm(st, b), storedUrl, now, transportFailed).write
              == Some(Update(b.(subCategory := None, publishYear := None, description := Some(b.description.GetOr("")))))
  {
  }

  /** A successful submit leaves the form ready for a new book. */
  lemma SubmitResetsOnSuccess(st: AdminState, storedUrl: Option<string>, now: nat)
    requires st.scriptUrl != ""
    ensures var r := Submit(st, storedUrl, now, false).state;
            !Editing(r) && r.form == InitialForm
  {
  }

  /** `handleDelete`: nothing happens unless the dialog is confirmed. */
  function HandleDelete(st: AdminState, id: string, confirmed: bool, storedUrl: Option<string>,
                        transportFailed: bool): (r: Step)
    ensures !confirmed ==> r == Step(st, None, [], false)
    ensures confirmed ==> r.write == Some(Remove(id))
    ensures confirmed ==> r.posted == [Api.DeletePayload(id)]
    ensures confirmed ==> (r.refresh <==> !transportFailed)
    ensures confirmed ==> r.state == st.(message := Some(if transportFailed then Failure else Success))
  {
    if !confirmed then Step(st, None, [], false)
    else
      var sent := Api.DeleteBook(Api.GetApiUrl(storedUrl), id, transportFailed);
      if sent.result == Api.Returned(true) then
        Step(st.(message := Some(Success)), Some(Remove(id)), PostedBy(sent), true)
      else
        Step(st.(message := Some(Failure)), Some(Remove(id)), PostedBy(sent), false)
  }

  predicate IsTrue(b: bool) { b }

  /** The i-th upload of the catalog sync: the book with a fresh id,
      `Date.now().toString() + i`, the clock being read at that upload. */
  function Upload(books: seq<Book>, i: nat, clock: nat -> nat): (b: Book)
    requires i < |books|
    ensures b.(id := books[i].id) == books[i]
    ensures b.id == NatToString(clock(i)) + NatToString(i)
  {
    books[i].(id := NatToString(clock(i)) + NatToString(i))
  }

  /** Counting the successes of one more upload. */
  lemma CountPrefixStep(sent: seq<bool>, i: nat)
    requires i < |sent|
    ensures Seqs.Count(IsTrue, sent[..i + 1]) == Seqs.Count(IsTrue, sent[..i]) + (if sent[i] then 1 else 0)
  {
    assert sent[..i + 1] == sent[..i] + [sent[i]];
    Seqs.FilterAppend(IsTrue, sent[..i], [sent[i]]);
  }

  /** The bodies the upload loop posts: for each upload, what `addBookToSheet`
      sends to the configured URL, which is the create envelope of that book. */
  function CreateBodies(url: string, uploads: seq<Book>, sent: seq<bool>): (r: seq<map<string, string>>)
    requires url != "" && |sent| == |uploads|
    ensures |r| == |uploads|
    ensures forall i :: 0 <= i < |r| ==> r[i] == Api.Envelope("create", uploads[i])
  {
    seq(|uploads|, i requires 0 <= i < |uploads| => Api.AddBook(url, uploads[i], !sent[i]).body.value)
  }

  /** The upload loop: one `addBookToSheet` per book, in order, to the
      configured URL, counting the writes that went through. */
  method UploadAll(books: seq<Book>, clock: nat -> nat, storedUrl: Option<string>, sent: seq<bool>)
    returns (uploads: seq<Book>, posts: seq<map<string, string>>, successCount: nat)
    requires |sent| == |books|
    ensures |uploads| == |books| && |posts| == |books|
    ensures forall i :: 0 <= i < |uploads| ==> uploads[i] == Upload(books, i, clock)
    ensures forall i :: 0 <= i < |posts| ==> posts[i] == Api.Envelope("create", uploads[i])
    ensures successCount == Seqs.Count(IsTrue, sent)
    ensures successCount > 0 <==> exists i :: 0 <= i < |sent| && sent[i]
  {
    uploads := [];
    successCount := 0;
    var url := Api.GetApiUrl(storedUrl);
    var i := 0;
    while i < |books|
      invariant 0 <= i <= |books|
      invariant |uploads| == i
      invariant forall j :: 0 <= j < i ==> uploads[j] == Upload(books, j, clock)
      invariant successCount == Seqs.Count(IsTrue, sent[..i])
      invariant successCount == 0 <==> forall j :: 0 <= j < i ==> !sent[j]
    {
      var upload := Upload(books, i, clock);
      var ok := Api.AddBook(url, upload, !sent[i]).result == Api.Returned(true);
      uploads := uploads + [upload];
      CountPrefixStep(sent, i);
      if ok {
        successCount := successCount + 1;
      }
      i := i + 1;
    }
    assert sent[..i] == sent;
    posts := CreateBodies(url, uploads, sent);
  }

  /** `handleSyncMockBooks`: after the URL check and the confirmation, every
      bundled book is uploaded; the outcome is a success, with a refresh,
      exactly when at least one write went through. `sent[i]` is whether the
      i-th POST avoided a transport failure. */
  method SyncMockBooks(st: AdminState, confirmed: bool, clock: nat -> nat, storedUrl: Option<string>, sent: seq<bool>)
    returns (r: Step, uploads: seq<Book>, successCount: nat)
    requires |sent| == |MockBooks|
    ensures st.scriptUrl == "" ==>
              r == Step(st.(message := Some(Failure), showSettings := true), None, [], false) && uploads == []
    ensures st.scriptUrl != "" && !confirmed ==> r == Step(st, None, [], false) && uploads == []
    ensures st.scriptUrl != "" && confirmed ==>
              |uploads| == |MockBooks| &&
              (forall i :: 0 <= i < |uploads| ==> uploads[i] == Upload(MockBooks, i, clock)) &&
              |r.posted| == |MockBooks| &&
              (forall i :: 0 <= i < |r.posted| ==> r.posted[i] == Api.Envelope("create", uploads[i])) &&
              successCount == Seqs.Count(IsTrue, sent) &&
              (r.refresh <==> exists i :: 0 <= i < |sent| && sent[i]) &&
              r.state == st.(message := Some(if r.refresh then Success else Failure))
  {
    uploads := [];
    successCount := 0;
    if st.scriptUrl == "" {
      r := Step(st.(message := Some(Failure), showSettings := true), None, [], false);
      return;
    }
    if !confirmed {
      r := Step(st, None, [], false);
      return;
    }
    var posts;
    uploads, posts, successCount := UploadAll(MockBooks, clock, storedUrl, sent);
    r := Step(st.(message := Some(if successCount > 0 then Success else Failure)), None, posts, successCount > 0);
  }
}

=== FILE: api.dfy ===
/** The client's gateway to the spreadsheet endpoint (`services/api.ts`):
    configuration defaults, lenient sanitisation of fetched rows, and writes
    whose only observable outcome is whether the transport threw. */
module Api {
  import opened Wrappers
  import opened Strings
  import opened Catalog

  const DefaultApiUrl: string :=
    "https://script.google.com/macros/s/AKfycbxZJNgNMg-45h47dCq35ljrVs3xv10d6b9Sr0uyjRf53kHZXm3VeEX-ARvNlUcAG-Tr/exec"
  const DefaultAdminPassword: string := "admin123"

  /** `localStorage.getItem(key) || fallback`; `stored` is None when the key is unset. */
  function StoredOr(stored: Option<string>, fallback: string): (r: string)
    ensures stored.Some? && stored.value != "" ==> r == stored.value
    ensures stored.None? || stored.value == "" ==> r == fallback
  {
    if stored.Some? && stored.value != "" then stored.value else fallback
  }

  /** `getApiUrl` */
  function GetApiUrl(stored: Option<string>): (r: string)
    ensures r != ""
    ensures stored.Some? && stored.value != "" ==> r == stored.value
    ensures stored.None? || stored.value == "" ==> r == DefaultApiUrl
  {
    StoredOr(stored, DefaultApiUrl)
  }

  /** `getAdminPassword` */
  function GetAdminPassword(stored: Option<string>): (r: string)
    ensures r != ""
    ensures stored.Some? && stored.value != "" ==> r == stored.value
    ensures stored.None? || stored.value == "" ==> r == DefaultAdminPassword
  {
    StoredOr(stored, DefaultAdminPassword)
  }

  /** A JSON scalar as it may appear in a fetched row. */
  datatype Raw = Text(s: string) | Number(n: int) | Bool(b: bool) | Null

  /** JavaScript truthiness of a JSON scalar. */
  predicate Truthy(v: Raw)
  {
    match v
    case Text(s) => s != ""
    case Number(n) => n != 0
    case Bool(b) => b
    case Null => false
  }

  /** `String(v)` (and `v.toString()` for non-null values). */
  function Str(v: Raw): string
  {
    match v
    case Text(s) => s
    case Number(n) => IntToString(n)
    case Bool(b) => if b then "true" else "false"
    case Null => "null"
  }

  /** A truthy value never renders as the empty string. */
  lemma TruthyStrNonEmpty(v: Raw)
    requires Truthy(v)
    ensures Str(v) != ""
  {
  }

  /** An element of the fetched JSON array: an object, some other non-null
      value (a string or number, which has none of the fields), or null. */
  datatype Item = Object(fields: map<string, Raw>) | Scalar | Nullish

  /** What the GET request produced. */
  datatype Reply =
    | NetworkFailure        // fetch rejected
    | NotOk                 // !response.ok
    | NotJson               // response.json() rejected
    | NonArray              // JSON, but not an array
    | Array(items: seq<Item>)

  function Field(item: Item, key: string): Option<Raw>
  {
    if item.Object? && key in item.fields then Some(item.fields[key]) else None
  }

  /** `item[key]` is truthy: the field is there and not falsy. */
  predicate Present(item: Item, key: string)
  {
    Field(item, key).Some? && Truthy(Field(item, key).value)
  }

  /** `item[key] ? String(item[key]) : fallback` */
  function TextOr(item: Item, key: string, fallback: string): (r: string)
    ensures Present(item, key) ==> r == Str(Field(item, key).value) && r != ""
    ensures !Present(item, key) ==> r == fallback
  {
    match Field(item, key)
    case Some(v) => if Truthy(v) then Str(v) else fallback
    case None => fallback
  }

  /** `item.id?.toString() || randomId`: any non-null id is rendered, so an id
      of `0` or `false` is kept as text; only a missing or null id, or one
      rendering as the empty string, gets the random id. */
  function IdOf(item: Item, randomId: string): (r: string)
    ensures Field(item, "id").Some? && Field(item, "id").value != Null && Str(Field(item, "id").value) != "" ==>
              r == Str(Field(item, "id").value)
    ensures Field(item, "id").None? || Field(item, "id").value == Null || Str(Field(item, "id").value) == "" ==>
              r == randomId
  {
    match Field(item, "id")
    case Some(v) => if v != Null && Str(v) != "" then Str(v) else randomId
    case None => randomId
  }

  /** `item.publishYear ? String(item.publishYear) : undefined` */
  function OptionalText(item: Item, key: string): (r: Option<string>)
    ensures Present(item, key) ==> r == Some(Str(Field(item, key).value)) && r.value != ""
    ensures !Present(item, key) ==> r == None
  {
    match Field(item, key)
    case Some(v) => if Truthy(v) then Some(Str(v)) else None
    case None => None
  }

  /** One fetched element turned into a catalog entry: every truthy field is
      rendered as text, every falsy or missing one replaced by its default,
      and `subCategory` dropped. */
  function Sanitize(item: Item, randomId: string): (b: Book)
    ensures b.id == IdOf(item, randomId)
    ensures randomId != "" ==> b.id != ""
    ensures b.title == if Present(item, "title") then Str(Field(item, "title").value) else "Untitled"
    ensures b.subject == if Present(item, "subject") then Str(Field(item, "subject").value) else "General"
    ensures b.classLevel == if Present(item, "classLevel") then Str(Field(item, "classLevel").value) else "1"
    ensures b.thumbnailUrl == if Present(item, "thumbnailUrl") then Str(Field(item, "thumbnailUrl").value) else ""
    ensures b.pdfUrl == if Present(item, "pdfUrl") then Str(Field(item, "pdfUrl").value) else ""
    ensures b.description == Some(if Present(item, "description") then Str(Field(item, "description").value) else "")
    ensures b.publishYear == if Present(item, "publishYear") then Some(Str(Field(item, "publishYear").value)) else None
    ensures b.title != "" && b.subject != "" && b.classLevel != ""
    ensures b.subCategory.None?
    ensures b.publishYear.Some? ==> b.publishYear.value != ""
  {
    Book(
      IdOf(item, randomId),
      TextOr(item, "title", "Untitled"),
      TextOr(item, "subject", "General"),
      TextOr(item, "classLevel", "1"),
      None,
      TextOr(item, "thumbnailUrl", ""),
      TextOr(item, "pdfUrl", ""),
      Some(TextOr(item, "description", "")),
      OptionalText(item, "publishYear"))
  }

  /** An element without fields (an empty object, a string or a number) gets
      every default and the random id. */
  lemma SanitizeDefaults(item: Item, randomId: string)
    requires item == Object(map[]) || item == Scalar
    ensures Sanitize(item, randomId)
              == Book(randomId, "Untitled", "General", "1", None, "", "", Some(""), None)
  {
  }

  /** A falsy JSON scalar: `""`, `0`, `false` or `null`. */
  predicate Falsy(v: Raw)
  {
    v == Text("") || v == Number(0) || v == Bool(false) || v == Null
  }

  /** Falsy is exactly not truthy. */
  lemma FalsyIsNotTruthy(v: Raw)
    ensures Falsy(v) <==> !Truthy(v)
  {
  }

  /** A field set to a falsy value counts as absent, whatever the other fields hold. */
  lemma FalsyFieldIsAbsent(fields: map<string, Raw>, key: string, v: Raw)
    requires Falsy(v)
    ensures !Present(Object(fields[key := v]), key)
  {
  }

  /** Any field set to a falsy value reads as its default, whatever the other
      fields hold. */
  lemma FalsyFieldsDefault(fields: map<string, Raw>, v: Raw, randomId: string)
    requires Falsy(v)
    ensures Sanitize(Object(fields["title" := v]), randomId).title == "Untitled"
    ensures Sanitize(Object(fields["subject" := v]), randomId).subject == "General"
    ensures Sanitize(Object(fields["classLevel" := v]), randomId).classLevel == "1"
    ensures Sanitize(Object(fields["thumbnailUrl" := v]), randomId).thumbnailUrl == ""
    ensures Sanitize(Object(fields["pdfUrl" := v]), randomId).pdfUrl == ""
    ensures Sanitize(Object(fields["description" := v]), randomId).description == Some("")
    ensures Sanitize(Object(fields["publishYear" := v]), randomId).publishYear == None
  {
    FalsyFieldIsAbsent(fields, "title", v);
    FalsyFieldIsAbsent(fields, "subject", v);
    FalsyFieldIsAbsent(fields, "classLevel", v);
    FalsyFieldIsAbsent(fields, "thumbnailUrl", v);
    FalsyFieldIsAbsent(fields, "pdfUrl", v);
    FalsyFieldIsAbsent(fields, "description", v);
    FalsyFieldIsAbsent(fields, "publishYear", v);
  }

  /** Numbers and booleans are rendered as text, and the id rule differs from
      the other fields: a grade given as the number 10 reads as `"10"`, a
      title of `0` becomes `Untitled`, but an id of `0` or `false` is kept. */
  lemma NonTextFields(randomId: string)
    ensures Sanitize(Object(map["classLevel" := Number(10)]), randomId).classLevel == "10"
    ensures Sanitize(Object(map["title" := Number(0)]), randomId).title == "Untitled"
    ensures Sanitize(Object(map["id" := Number(0)]), randomId).id == "0"
    ensures Sanitize(Object(map["id" := Bool(false)]), randomId).id == "false"
  {
    assert IntToString(10) == "10" by {
      assert NatToString(10) == NatToString(1) + [DigitChar(0)];
    }
    assert IntToString(0) == "0";
  }

  /** The JSON object the read action emits for a book whose fields are strings. */
  function TextObject(b: Book): Item
    requires b.description.Some? && b.publishYear.Some?
  {
    Object(map["id" := Text(b.id), "title" := Text(b.title),
               "subject" := Text(b.subject), "classLevel" := Text(b.classLevel),
               "thumbnailUrl" := Text(b.thumbnailUrl), "pdfUrl" := Text(b.pdfUrl),
               "description" := Text(b.description.value),
               "publishYear" := Text(b.publishYear.value)])
  }

  /** A row whose fields are all non-empty strings passes through unchanged
      (apart from the dropped `subCategory`). */
  lemma SanitizeKeepsText(b: Book, randomId: string)
    requires b.id != "" && b.title != "" && b.subject != "" && b.classLevel != ""
    requires b.thumbnailUrl != "" && b.pdfUrl != ""
    requires b.description.Some? && b.publishYear.Some? && b.publishYear.value != ""
    ensures Sanitize(TextObject(b), randomId) == b.(subCategory := None)
  {
  }

  /** `fetchBooksFromSheet`: sanitised rows in order, or the empty list when
      the URL is empty, the request fails in any way, the JSON is not an array,
      or an element is null (reading its fields throws). `randomIds(i)` stands
      for the `Math.random()` id drawn for element i. */
  function FetchBooks(url: string, reply: Reply, randomIds: nat -> string): (r: seq<Book>)
    ensures url == "" || !reply.Array? ==> r == []
    ensures url != "" && reply.Array? && (exists i :: 0 <= i < |reply.items| && reply.items[i].Nullish?) ==> r == []
    ensures url != "" && reply.Array? && (forall i :: 0 <= i < |reply.items| ==> !reply.items[i].Nullish?) ==>
              |r| == |reply.items| &&
              forall i :: 0 <= i < |r| ==> r[i] == Sanitize(reply.items[i], randomIds(i))
  {
    if url == "" then []
    else match reply
      case Array(items) =>
        if exists i :: 0 <= i < |items| && items[i].Nullish? then []
        else seq(|items|, i requires 0 <= i < |items| => Sanitize(items[i], randomIds(i)))
      case _ => []
  }

  /** Every fetched entry has a usable title, subject and grade, and an id as
      long as the random ids are non-empty. */
  lemma FetchedBooksComplete(url: string, reply: Reply, randomIds: nat -> string)
    requires forall i :: randomIds(i) != ""
    ensures forall b :: b in FetchBooks(url, reply, randomIds) ==>
              b.id != "" && b.title != "" && b.subject != "" && b.classLevel != ""
  {
  }

  /** The result of `sendToSheet`: it throws, or returns whether the POST
      went out without a transport error. */
  datatype SendResult = Threw | Returned(ok: bool)

  /** One call of `sendToSheet`: the JSON body it posted (none when it threw
      before calling `fetch`) and what it reported. */
  datatype Sent = Sent(body: Option<map<string, string>>, result: SendResult)

  /** `sendToSheet`: the payload is posted whenever there is a URL; the
      response is opaque (`no-cors`), so success means only that the transport
      did not fail; an empty URL throws instead of returning false. */
  function SendToSheet(url: string, payload: map<string, string>, transportFailed: bool): (r: Sent)
    ensures r.result.Threw? <==> url == ""
    ensures r.body.Some? <==> url != ""
    ensures r.body.Some? ==> r.body.value == payload
    ensures url != "" ==> (r.result == Returned(true) <==> !transportFailed)
  {
    if url == "" then Sent(None, Threw) else Sent(Some(payload), Returned(!transportFailed))
  }

  /** What the server does with the payload cannot change the reported outcome. */
  lemma SendIgnoresPayload(url: string, p1: map<string, string>, p2: map<string, string>, transportFailed: bool)
    ensures SendToSheet(url, p1, transportFailed).result == SendToSheet(url, p2, transportFailed).result
  {
  }

  /** With the configured URL (never empty) a write never throws and always posts. */
  lemma ConfiguredSendNeverThrows(stored: Option<string>, payload: map<string, string>, transportFailed: bool)
    ensures SendToSheet(GetApiUrl(stored), payload, transportFailed) == Sent(Some(payload), Returned(!transportFailed))
  {
  }

  /** A book serialised by `JSON.stringify`: optional fields that are
      `undefined` are left out. */
  function BookFields(b: Book): (m: map<string, string>)
    ensures "action" !in m
    ensures m.Keys >= {"id", "title", "subject", "classLevel", "thumbnailUrl", "pdfUrl"}
    ensures m.Keys <= {"id", "title", "subject", "classLevel", "subCategory", "thumbnailUrl", "pdfUrl",
                       "description", "publishYear"}
    ensures m["id"] == b.id && m["title"] == b.title && m["subject"] == b.subject
    ensures m["classLevel"] == b.classLevel && m["thumbnailUrl"] == b.thumbnailUrl && m["pdfUrl"] == b.pdfUrl
    ensures ("subCategory" in m <==> b.subCategory.Some?) && (b.subCategory.Some? ==> m["subCategory"] == b.subCategory.value)
    ensures ("description" in m <==> b.description.Some?) && (b.description.Some? ==> m["description"] == b.description.value)
    ensures ("publishYear" in m <==> b.publishYear.Some?) && (b.publishYear.Some? ==> m["publishYear"] == b.publishYear.value)
  {
    var base := map["id" := b.id, "title" := b.title, "subject" := b.subject,
                    "classLevel" := b.classLevel, "thumbnailUrl" := b.thumbnailUrl, "pdfUrl" := b.pdfUrl];
    var withSub := if b.subCategory.Some? then base["subCategory" := b.subCategory.value] else base;
    var withDesc := if b.description.Some? then withSub["description" := b.description.value] else withSub;
    if b.publishYear.Some? then withDesc["publishYear" := b.publishYear.value] else withDesc
  }

  /** `{ action, ...book }` */
  function Envelope(action: string, b: Book): (m: map<string, string>)
    ensures "action" in m && m["action"] == action
    ensures m.Keys == BookFields(b).Keys + {"action"}
    ensures forall k :: k in BookFields(b) ==> m[k] == BookFields(b)[k]
  {
    map["action" := action] + BookFields(b)
  }

  function CreatePayload(b: Book): map<string, string> { Envelope("create", b) }

  function UpdatePayload(b: Book): map<string, string> { Envelope("update", b) }

  /** `{ action: 'delete', id }` */
  function DeletePayload(id: string): (m: map<string, string>)
    ensures m.Keys == {"action", "id"} && m["action"] == "delete" && m["id"] == id
  {
    map["action" := "delete", "id" := id]
  }

  /** `addBookToSheet`: posts `{ action: 'create', ...book }`. */
  function AddBook(url: string, b: Book, transportFailed: bool): (r: Sent)
    ensures r.result.Threw? <==> url == ""
    ensures url != "" ==> (r.result == Returned(true) <==> !transportFailed)
    ensures url == "" ==> r.body.None?
    ensures url != "" ==> r.body == Some(Envelope("create", b))
  {
    SendToSheet(url, CreatePayload(b), transportFailed)
  }

  /** `updateBookInSheet`: posts `{ action: 'update', ...book }`. */
  function UpdateBook(url: string, b: Book, transportFailed: bool): (r: Sent)
    ensures r.result.Threw? <==> url == ""
    ensures url != "" ==> (r.result == Returned(true) <==> !transportFailed)
    ensures url == "" ==> r.body.None?
    ensures url != "" ==> r.body == Some(Envelope("update", b))
  {
    SendToSheet(url, UpdatePayload(b), transportFailed)
  }

  /** `deleteBookFromSheet`: posts `{ action: 'delete', id }`. */
  function DeleteBook(url: string, id: string, transportFailed: bool): (r: Sent)
    ensures r.result.Threw? <==> url == ""
    ensures url != "" ==> (r.result == Returned(true) <==> !transportFailed)
    ensures url == "" ==> r.body.None?
    ensures url != "" ==> r.body == Some(DeletePayload(id))
  {
    SendToSheet(url, DeletePayload(id), transportFailed)
  }

  /** Every write reports success exactly when the transport did not fail, and
      posts its action name with the book's fields, or with the id alone. */
  lemma WritesReportTransportOnly(url: string, b: Book, id: string, transportFailed: bool)
    requires url != ""
    ensures AddBook(url, b, transportFailed).result == Returned(!transportFailed)
    ensures UpdateBook(url, b, transportFailed).result == Returned(!transportFailed)
    ensures DeleteBook(url, id, transportFailed).result == Returned(!transportFailed)
    ensures AddBook(url, b, transportFailed).body.value["action"] == "create"
    ensures UpdateBook(url, b, transportFailed).body.value["action"] == "update"
    ensures AddBook(url, b, transportFailed).body.value.Keys == BookFields(b).Keys + {"action"}
    ensures UpdateBook(url, b, transportFailed).body.value.Keys == BookFields(b).Keys + {"action"}
    ensures forall k :: k in BookFields(b) ==>
              AddBook(url, b, transportFailed).body.value[k] == BookFields(b)[k]
              && UpdateBook(url, b, transportFailed).body.value[k] == BookFields(b)[k]
    ensures DeleteBook(url, id, transportFailed).body.value == map["action" := "delete", "id" := id]
  {
  }
}

=== FILE: bangla.dfy ===
/** Bengali numerals: the digit table the pages use in their `toBanglaDigit`
    helpers, and its inverse. */
module Bangla {
  import opened Strings

  /** The table indexed by `parseInt(d)` in every page's `toBanglaDigit`. */
  const BanglaDigits: string := "০১২৩৪৫৬৭৮৯"

  /** The table holds the ten consecutive code points U+09E6 .. U+09EF. */
  lemma BanglaDigitsAreConsecutive(d: nat)
    requires d < 10
    ensures BanglaDigits[d] as int == 0x09E6 + d
  {
  }

  predicate IsBanglaDigit(c: char)
  {
    0x09E6 <= c as int <= 0x09EF
  }

  function ToBanglaChar(c: char): (b: char)
    ensures !IsDigit(b)
  {
    if IsDigit(c) then BanglaDigits[DigitValue(c)] else c
  }

  /** `str.replace(/[0-9]/g, d => table[parseInt(d)])`: every ASCII digit is
      replaced by the Bengali digit of the same value, everything else is kept. */
  function ToBangla(s: string): (r: string)
    ensures |r| == |s|
    ensures forall i :: 0 <= i < |r| ==> !IsDigit(r[i])
    ensures forall i :: 0 <= i < |s| && !IsDigit(s[i]) ==> r[i] == s[i]
    ensures forall i :: 0 <= i < |s| && IsDigit(s[i]) ==>
              IsBanglaDigit(r[i]) && r[i] as int - 0x09E6 == DigitValue(s[i])
  {
    seq(|s|, i requires 0 <= i < |s| => ToBanglaChar(s[i]))
  }

  /** The inverse table: a Bengali digit back to the ASCII digit of the same value. */
  function FromBanglaChar(c: char): char
  {
    if IsBanglaDigit(c) then DigitChar(c as int - 0x09E6) else c
  }

  function FromBangla(s: string): (r: string)
    ensures |r| == |s|
    ensures forall i :: 0 <= i < |s| && IsBanglaDigit(s[i]) ==> IsDigit(r[i])
    ensures forall i :: 0 <= i < |s| && !IsBanglaDigit(s[i]) ==> r[i] == s[i]
  {
    seq(|s|, i requires 0 <= i < |s| => FromBanglaChar(s[i]))
  }

  /** Converting to Bengali digits loses nothing: a string without Bengali
      digits is recovered by the inverse table. */
  lemma ToBanglaRoundTrip(s: string)
    ensures (forall i :: 0 <= i < |s| ==> !IsBanglaDigit(s[i])) ==> FromBangla(ToBangla(s)) == s
  {
    if forall i :: 0 <= i < |s| ==> !IsBanglaDigit(s[i]) {
      forall i | 0 <= i < |s|
        ensures FromBanglaChar(ToBanglaChar(s[i])) == s[i]
      {
        if IsDigit(s[i]) {
          BanglaDigitsAreConsecutive(DigitValue(s[i]));
        }
      }
    }
  }

  /** Applying the conversion twice changes nothing more. */
  lemma ToBanglaIdempotent(s: string)
    ensures ToBangla(ToBangla(s)) == ToBangla(s)
  {
  }

  /** A number rendered in Bengali numerals (`toBanglaDigit(n)` of the search page). */
  function BanglaNumeral(n: nat): (r: string)
    ensures |r| == |NatToString(n)|
    ensures forall i :: 0 <= i < |r| ==> IsBanglaDigit(r[i])
  {
    ToBangla(NatToString(n))
  }

  /** Bengali numerals are unambiguous: reading the digits back gives the number. */
  lemma BanglaNumeralReadsBack(n: nat)
    ensures ParseNat(FromBangla(BanglaNumeral(n))) == n
  {
    var s := NatToString(n);
    ToBanglaRoundTrip(s);
    ParseNatToString(n);
  }
}

=== FILE: book_list_page.dfy ===
/** The grade listing (`pages/BookList.tsx`): the bundled books of one grade
    and the count shown in Bengali numerals. */
module BookListPage {
  import opened Wrappers
  import opened Catalog
  import opened Strings
  import Seqs
  import Bangla

  /** `books.filter(book => book.classLevel === classId)`; an absent route
      parameter matches nothing. */
  function ByClass(books: seq<Book>, classId: Option<string>): (r: seq<Book>)
    ensures classId.None? ==> r == []
    ensures forall i :: 0 <= i < |r| ==> r[i] in books
    ensures forall i :: 0 <= i < |r| ==> classId.Some? && r[i].classLevel == classId.value
    ensures forall i :: 0 <= i < |books| && classId.Some? && books[i].classLevel == classId.value ==> books[i] in r
  {
    var p := (b: Book) => classId.Some? && b.classLevel == classId.value;
    var r := Seqs.Filter(p, books);
    assert r != [] ==> p(r[0]);
    r
  }

  /** The grade filter keeps the catalog's order, and every copy of a book of
      the grade. */
  lemma ByClassKeepsOrder(books: seq<Book>, classId: Option<string>, b: Book)
    ensures Seqs.IsSubseq(ByClass(books, classId), books)
    ensures multiset(ByClass(books, classId))[b]
              == if classId.Some? && b.classLevel == classId.value then multiset(books)[b] else 0
  {
    var p := (x: Book) => classId.Some? && x.classLevel == classId.value;
    Seqs.FilterIsSubseq(p, books);
    Seqs.FilterCount(p, books, b);
  }

  /** The page lists the bundled catalog, not the live one. */
  function Listed(classId: Option<string>): seq<Book>
  {
    ByClass(MockBooks, classId)
  }

  /** This page's `toBanglaDigit`: `""` for an undefined or empty string. */
  function ToBanglaDigit(s: Option<string>): (r: string)
    ensures s.None? ==> r == ""
    ensures s.Some? ==> |r| == |s.value|
  {
    if s.None? || s.value == "" then "" else Bangla.ToBangla(s.value)
  }

  /** It agrees with the shared conversion, an absent string counting as empty. */
  lemma ToBanglaDigitAgrees(s: Option<string>)
    ensures ToBanglaDigit(s) == Bangla.ToBangla(s.GetOr(""))
  {
  }

  /** "মোট N টি বই": the number shown reads back as the number of listed books. */
  function CountLabel(classId: Option<string>): (r: string)
    ensures |r| == |NatToString(|Listed(classId)|)|
    ensures forall i :: 0 <= i < |r| ==> Bangla.IsBanglaDigit(r[i])
    ensures ParseNat(Bangla.FromBangla(r)) == |Listed(classId)|
  {
    Bangla.BanglaNumeralReadsBack(|Listed(classId)|);
    ToBanglaDigit(Some(NatToString(|Listed(classId)|)))
  }
}

=== FILE: book_store.dfy ===
/** The catalog store (`context/BookContext.tsx`): the visible book list, the
    loading flag and whether the list came from the live sheet. Each load is a
    complete transaction: the awaited fetch outcome is an input. */
module BookStore {
  import opened Catalog
  import Seqs

  datatype StoreState = StoreState(books: seq<Book>, loading: bool, live: bool)

  /** The provider's initial state, before the first load completes. */
  const Initial: StoreState := StoreState(MockBooks, false, false)

  /** What awaiting `fetchBooksFromSheet()` gave: a list, or an exception. */
  datatype FetchOutcome = Fetched(books: seq<Book>) | Threw

  /** `loadBooks`: a non-empty live result is shown newest first (reversed);
      anything else falls back to the bundled catalog. */
  function LoadBooks(st: StoreState, url: string, fetched: FetchOutcome): (r: StoreState)
    ensures url == "" ==> r == StoreState(MockBooks, st.loading, false)
    ensures url != "" ==> !r.loading
    ensures r.live <==> url != "" && fetched.Fetched? && |fetched.books| > 0
    ensures r.live ==> r.books == Seqs.Reverse(fetched.books)
    ensures !r.live ==> r.books == MockBooks
    ensures r.books != []
  {
    if url == "" then st.(books := MockBooks, live := false)
    else
      match fetched
      case Fetched(list) =>
        if |list| > 0 then StoreState(Seqs.Reverse(list), false, true)
        else StoreState(MockBooks, false, false)
      case Threw => StoreState(MockBooks, false, false)
  }

  /** The provider starts on the bundled catalog, not live and not loading. */
  lemma InitialState()
    ensures Initial.books == MockBooks && |Initial.books| == 10
    ensures !Initial.live && !Initial.loading
  {
  }

  /** A load replaces the list outright: what was shown before has no influence. */
  lemma LoadReplaces(st1: StoreState, st2: StoreState, url: string, fetched: FetchOutcome)
    ensures LoadBooks(st1, url, fetched).books == LoadBooks(st2, url, fetched).books
    ensures LoadBooks(st1, url, fetched).live == LoadBooks(st2, url, fetched).live
  {
  }

  /** A live list puts the last sheet row first, and the sheet order can be
      recovered by reversing again. */
  lemma {:induction false} LiveIsNewestFirst(st: StoreState, url: string, list: seq<Book>)
    requires url != "" && |list| > 0
    ensures LoadBooks(st, url, Fetched(list)).books[0] == list[|list| - 1]
    ensures Seqs.Reverse(LoadBooks(st, url, Fetched(list)).books) == list
  {
    Seqs.ReverseInvolutive(list);
  }

  /** With loading idle before, every completed load leaves it idle. */
  lemma LoadEndsIdle(st: StoreState, url: string, fetched: FetchOutcome)
    requires !st.loading
    ensures !LoadBooks(st, url, fetched).loading
  {
  }
}

=== FILE: catalog.dfy ===
/** The catalog's records (`types.ts`) and the static data bundled with the
    client (`constants.ts`): the grade taxonomy `CLASSES` and the fallback
    catalog `MOCK_BOOKS`. */
module Catalog {
  import opened Wrappers
  import opened Strings
  import Bangla
  import Seqs

  /** A catalog entry; optional fields are `None` where TypeScript has `undefined`. */
  datatype Book = Book(
    id: string,
    title: string,
    subject: string,
    classLevel: string,
    subCategory: Option<string>,
    thumbnailUrl: string,
    pdfUrl: string,
    description: Option<string>,
    publishYear: Option<string>)

  /** A grade of the browse taxonomy: `caption` is the source's `label` (a Dafny keyword), `value` the `classLevel` it filters on. */
  datatype Category = Category(id: string, caption: string, value: string)

  /** The Bengali numerals 1 to 12 the label template indexes by position. */
  const ClassNumerals: seq<string> := ["১", "২", "৩", "৪", "৫", "৬", "৭", "৮", "৯", "১০", "১১", "১২"]

  const ClassWord: string := "শ্রেণী "

  /** `CLASSES`: twelve grades, built from their position. */
  const Classes: seq<Category> :=
    seq(12, i requires 0 <= i < 12 =>
      Category("class-" + NatToString(i + 1), ClassWord + ClassNumerals[i], NatToString(i + 1)))

  /** The numeral table spells each grade number in Bengali digits. */
  lemma ClassNumeralIsBangla(i: nat)
    requires i < 12
    ensures ClassNumerals[i] == Bangla.ToBangla(NatToString(i + 1))
  {
    if i < 9 {
      assert NatToString(i + 1) == [DigitChar(i + 1)];
      Bangla.BanglaDigitsAreConsecutive(i + 1);
    } else {
      assert NatToString(i + 1) == ['1', DigitChar(i - 9)];
      Bangla.BanglaDigitsAreConsecutive(1);
      Bangla.BanglaDigitsAreConsecutive(i - 9);
    }
  }

  /** The grade list: twelve entries, entry i is `class-{i+1}` filtering on
      `{i+1}` and labelled with the same number in Bengali digits. */
  lemma ClassesShape(i: nat)
    requires i < |Classes|
    ensures |Classes| == 12
    ensures Classes[i].id == "class-" + NatToString(i + 1)
    ensures ParseNat(Classes[i].value) == i + 1
    ensures Classes[i].caption == ClassWord + Bangla.ToBangla(Classes[i].value)
  {
    ParseNatToString(i + 1);
    ClassNumeralIsBangla(i);
  }

  /** No two grades share a filter value. */
  lemma ClassValuesDistinct(i: nat, j: nat)
    requires i < |Classes| && j < |Classes| && i != j
    ensures Classes[i].value != Classes[j].value
  {
    if Classes[i].value == Classes[j].value {
      NatToStringInjective(i + 1, j + 1);
    }
  }

  function MockBook(id: string, title: string, subject: string, classLevel: string,
                    pdfUrl: string, description: Option<string>): Book
  {
    Book(id, title, subject, classLevel, None,
         "https://picsum.photos/300/400?random=" + id, pdfUrl, description, None)
  }

  /** `MOCK_BOOKS`: the bundled fallback catalog. */
  const MockBooks: seq<Book> := [
    MockBook("1", "গণিত পার্ট ১", "গণিত", "10",
      "https://drive.google.com/file/d/1XefvptuYY3rRelUfTBB73D5RByvfSBt4/view",
      Some("দশম শ্রেণীর শিক্ষার্থীদের জন্য বীজগণিত এবং জ্যামিতির মৌলিক ধারণা।")),
    MockBook("2", "পদার্থবিজ্ঞান: গতির সূত্র", "বিজ্ঞান", "9",
      "https://drive.google.com/file/d/115s4TYw-7mzDj2A4Ml755FKH1sScG41R/view",
      Some("নিউটনের সূত্র এবং মৌলিক বলবিদ্যা বোঝা।")),
    MockBook("3", "ইতিহাস: ভারত ও সমসাময়িক বিশ্ব", "সামাজিক বিজ্ঞান", "10",
      "https://drive.google.com/open?id=test_id_3",
      Some("শিল্প বিপ্লব এবং ভারতের জাতীয়তাবাদের গভীর আলোচনা।")),
    MockBook("4", "ইংলিশ বিহাইভ", "ইংরেজি", "9",
      "https://drive.google.com/file/d/test_id_4/preview",
      Some("ইংরেজি সাহিত্যের পাঠ্যপুস্তক।")),
    MockBook("5", "রসায়ন: আমাদের চারপাশের পদার্থ", "বিজ্ঞান", "9",
      "https://drive.google.com/file/d/test_id_5/preview", None),
    MockBook("6", "জীববিজ্ঞান: জীবন প্রক্রিয়া", "বিজ্ঞান", "10",
      "https://drive.google.com/file/d/test_id_6/preview", None),
    MockBook("7", "পৌরনীতি: গণতান্ত্রিক রাজনীতি", "সামাজিক বিজ্ঞান", "9",
      "https://drive.google.com/file/d/test_id_7/preview", None),
    MockBook("8", "প্রাথমিক ব্যষ্টিক অর্থনীতি", "অর্থনীতি", "11",
      "https://drive.google.com/file/d/test_id_8/preview", None),
    MockBook("9", "ব্যবসায় শিক্ষা পার্ট ১", "ব্যবসায়", "12",
      "https://drive.google.com/file/d/test_id_9/preview", None),
    MockBook("10", "গণিত মজা", "গণিত", "1",
      "https://drive.google.com/file/d/test_id_10/preview", None)
  ]

  /** The fallback catalog is never empty and its ids are distinct. */
  lemma MockBooksWellFormed()
    ensures |MockBooks| == 10
    ensures forall i, j :: 0 <= i < j < |MockBooks| ==> MockBooks[i].id != MockBooks[j].id
  {
  }

  /** `books.find(b => b.id === id)`: the first entry with that id, if any. */
  function FindById(books: seq<Book>, id: string): (r: Option<Book>)
    ensures r.Some? ==> r.value.id == id && r.value in books
    ensures r.Some? <==> exists i :: 0 <= i < |books| && books[i].id == id
    ensures r.Some? ==> exists i :: 0 <= i < |books| && books[i] == r.value &&
                          forall j :: 0 <= j < i ==> books[j].id != id
  {
    match Seqs.FindFirst((b: Book) => b.id == id, books, 0)
    case Some(i) => Some(books[i])
    case None => None
  }

  /** Among entries with distinct ids, the lookup finds exactly the entry with that id. */
  lemma FindByIdUnique(books: seq<Book>, k: nat)
    requires k < |books|
    requires forall i, j :: 0 <= i < j < |books| ==> books[i].id != books[j].id
    ensures FindById(books, books[k].id) == Some(books[k])
  {
  }
}

=== FILE: details_page.dfy ===
/** The book detail page (`pages/BookDetails.tsx`): lookup in the bundled
    catalog, its two navigation targets and the description fallback. */
module DetailsPage {
  import opened Wrappers
  import opened Catalog
  import Bangla
  import Strings
  import BookListPage
  import ReaderPage

  /** The client routes the detail page navigates to. */
  datatype Route = Home | ClassList(classId: string) | Reader(bookId: string)

  function Path(r: Route): string
  {
    match r
    case Home => "/"
    case ClassList(c) => "/class/" + c
    case Reader(id) => "/read/" + id
  }

  /** `MOCK_BOOKS.find(b => b.id === bookId)` */
  function Lookup(bookId: string): (r: Option<Book>)
    ensures r.Some? ==> r.value.id == bookId && r.value in MockBooks
    ensures r.None? <==> forall i :: 0 <= i < |MockBooks| ==> MockBooks[i].id != bookId
  {
    FindById(MockBooks, bookId)
  }

  /** `handleBack`: the grade list of the book shown, or home when there is none.
      The grade list it opens lists that very book. */
  function BackTarget(book: Option<Book>): (r: Route)
    ensures r.ClassList? <==> book.Some?
    ensures r.Home? <==> book.None?
    ensures book.Some? && book.value in MockBooks ==> book.value in BookListPage.Listed(Some(r.classId))
  {
    match book
    case Some(b) => ClassList(b.classLevel)
    case None => Home
  }

  /** `handleReadClick`: the reader route of the book shown. */
  function ReadTarget(bookId: string): (r: Route)
    ensures r.Reader? && r.bookId == bookId
    ensures Path(r) == "/read/" + bookId
  {
    Reader(bookId)
  }

  /** The reader opened from this page looks the id up the same way: it opens
      exactly when this page found the book. */
  lemma ReaderShowsSameBook(bookId: string, windowWidth: int, encode: string -> string)
    ensures ReadTarget(bookId).Reader?
    ensures ReaderPage.Open(MockBooks, ReadTarget(bookId).bookId, windowWidth, encode).Some? <==> Lookup(bookId).Some?
  {
  }

  /** Back from any book that the page found lands on a list containing it. */
  lemma BackListsTheBook(bookId: string)
    requires Lookup(bookId).Some?
    ensures BackTarget(Lookup(bookId)).ClassList?
    ensures Lookup(bookId).value in BookListPage.Listed(Some(BackTarget(Lookup(bookId)).classId))
  {
  }

  const NoDescription: string := "এই বইটির জন্য কোনো বিস্তারিত বিবরণ নেই।"

  /** `book.description || fallback` */
  function DescriptionText(b: Book): (r: string)
    ensures r != ""
    ensures b.description.Some? && b.description.value != "" ==> r == b.description.value
    ensures b.description.None? || b.description.value == "" ==> r == NoDescription
  {
    if b.description.Some? && b.description.value != "" then b.description.value else NoDescription
  }

  /** The grade heading: the word for grade followed by the level in Bengali digits. */
  function GradeHeading(b: Book): (r: string)
    ensures |r| == |ClassWord| + |b.classLevel| && r[..|ClassWord|] == ClassWord
    ensures forall i :: 0 <= i < |b.classLevel| && Strings.IsDigit(b.classLevel[i]) ==>
              Bangla.IsBanglaDigit(r[|ClassWord| + i])
              && r[|ClassWord| + i] as int - 0x09E6 == Strings.DigitValue(b.classLevel[i])
    ensures forall i :: 0 <= i < |b.classLevel| && !Strings.IsDigit(b.classLevel[i]) ==>
              r[|ClassWord| + i] == b.classLevel[i]
    ensures (forall i :: 0 <= i < |b.classLevel| ==> !Bangla.IsBanglaDigit(b.classLevel[i])) ==>
              Bangla.FromBangla(r[|ClassWord|..]) == b.classLevel
  {
    var digits := Bangla.ToBangla(b.classLevel);
    assert (ClassWord + digits)[|ClassWord|..] == digits;
    Bangla.ToBanglaRoundTrip(b.classLevel);
    ClassWord + digits
  }

  /** For a book of one of the twelve grades, the heading is that grade's caption
      in the browse taxonomy. */
  lemma GradeHeadingMatchesTaxonomy(b: Book, i: nat)
    requires i < |Classes| && b.classLevel == Classes[i].value
    ensures GradeHeading(b) == Classes[i].caption
  {
    ClassesShape(i);
  }
}

=== FILE: drive_links.dfy ===
/** Google Drive link normalisation (`constants.ts`): extract a file id from a
    sharing link, then rebuild a preview-embed link, a direct-download link and
    a CORS-proxied download link from it. */
module DriveLinks {
  import opened Wrappers
  import opened Strings

  /** The character class `[a-zA-Z0-9_-]` of the id capture group. */
  predicate IsIdChar(c: char)
  {
    ('a' <= c <= 'z') || ('A' <= c <= 'Z') || ('0' <= c <= '9') || c == '_' || c == '-'
  }

  /** What the capture group `([a-zA-Z0-9_-]+)` can produce. */
  predicate IsDriveId(s: string)
  {
    |s| > 0 && forall i :: 0 <= i < |s| ==> IsIdChar(s[i])
  }

  /** Literal prefixes of the three patterns, tried in this order. */
  const FilePattern: string := "/file/d/"
  const IdPattern: string := "id="
  const OpenPattern: string := "/open?id="

  /** The regex `lit([a-zA-Z0-9_-]+)` matches at `i`: the literal occurs there
      and at least one id character follows it. */
  predicate MatchesAt(lit: string, s: string, i: nat)
  {
    OccursAt(lit, s, i) && i + |lit| < |s| && IsIdChar(s[i + |lit|])
  }

  /** Leftmost match position at or after `from`. */
  function FirstMatchFrom(lit: string, s: string, from: nat): (r: Option<nat>)
    requires from <= |s|
    decreases |s| - from
    ensures r.Some? ==> from <= r.value && MatchesAt(lit, s, r.value)
    ensures r.Some? ==> forall j :: from <= j < r.value ==> !MatchesAt(lit, s, j)
    ensures r.None? <==> forall j :: from <= j ==> !MatchesAt(lit, s, j)
  {
    if from == |s| then None
    else if MatchesAt(lit, s, from) then Some(from)
    else FirstMatchFrom(lit, s, from + 1)
  }

  /** The greedy run of id characters starting at `k`. */
  function IdRun(s: string, k: nat): (r: string)
    requires k <= |s|
    decreases |s| - k
    ensures k + |r| <= |s| && s[k..k + |r|] == r
    ensures forall j :: 0 <= j < |r| ==> IsIdChar(r[j])
    ensures k + |r| == |s| || !IsIdChar(s[k + |r|])
  {
    if k < |s| && IsIdChar(s[k]) then [s[k]] + IdRun(s, k + 1) else []
  }

  /** `s.match(/lit([a-zA-Z0-9_-]+)/)?.[1]`: the capture at the leftmost match. */
  function MatchPattern(lit: string, s: string): (r: Option<string>)
    ensures r.Some? ==> IsDriveId(r.value)
    ensures r.None? <==> forall j: nat :: !MatchesAt(lit, s, j)
    ensures r.Some? <==> FirstMatchFrom(lit, s, 0).Some?
    ensures r.Some? ==> r.value == IdRun(s, FirstMatchFrom(lit, s, 0).value + |lit|)
  {
    match FirstMatchFrom(lit, s, 0)
    case Some(i) => Some(IdRun(s, i + |lit|))
    case None => None
  }

  /** `getDriveId`: the capture of the first of the three patterns that matches. */
  function GetDriveId(url: string): (r: Option<string>)
    ensures r.Some? ==> IsDriveId(r.value)
    ensures MatchPattern(FilePattern, url).Some? ==> r == MatchPattern(FilePattern, url)
    ensures MatchPattern(FilePattern, url).None? && MatchPattern(IdPattern, url).Some? ==>
              r == MatchPattern(IdPattern, url)
    ensures r.None? <==> MatchPattern(FilePattern, url).None? && MatchPattern(IdPattern, url).None?
                          && MatchPattern(OpenPattern, url).None?
  {
    match MatchPattern(FilePattern, url)
    case Some(id) => Some(id)
    case None =>
      match MatchPattern(IdPattern, url)
      case Some(id) => Some(id)
      case None =>
        match MatchPattern(OpenPattern, url)
        case Some(id) => Some(id)
        case None => None
  }

  /** The third pattern never decides: wherever `/open?id=X` matches, the
      second pattern `id=X` already matched. */
  lemma OpenPatternIsSubsumed(url: string)
    ensures MatchPattern(OpenPattern, url).Some? ==> MatchPattern(IdPattern, url).Some?
  {
    var m := FirstMatchFrom(OpenPattern, url, 0);
    if m.Some? {
      var i := m.value;
      assert url[i + 6..i + 9] == url[i..i + 9][6..9];
      assert MatchesAt(IdPattern, url, i + 6);
    }
  }

  /** Hence `getDriveId` is decided by the first two patterns alone. */
  lemma GetDriveIdTwoPatterns(url: string)
    ensures GetDriveId(url) == (match MatchPattern(FilePattern, url)
                                case Some(id) => Some(id)
                                case None => MatchPattern(IdPattern, url))
  {
    OpenPatternIsSubsumed(url);
  }

  const DriveHost: string := "https://drive.google.com"
  const EmbedPrefix: string := DriveHost + FilePattern
  const EmbedSuffix: string := "/preview"
  const DownloadPrefix: string := "https://drive.google.com/uc?export=download&id="
  const ProxyPrefix: string := "https://corsproxy.io/?"

  /** `getEmbedUrl`: the preview link for the file, or the input unchanged. */
  function EmbedUrl(url: string): (r: string)
    ensures GetDriveId(url).Some? ==> r == EmbedPrefix + GetDriveId(url).value + EmbedSuffix
    ensures GetDriveId(url).None? ==> r == url
  {
    match GetDriveId(url)
    case Some(id) => EmbedPrefix + id + EmbedSuffix
    case None => url
  }

  /** `getGoogleDriveDownloadLink`: the direct-download link, or `None`. */
  function DownloadLink(url: string): (r: Option<string>)
    ensures r.Some? <==> GetDriveId(url).Some?
    ensures r.Some? ==> r.value == DownloadPrefix + GetDriveId(url).value
  {
    match GetDriveId(url)
    case Some(id) => Some(DownloadPrefix + id)
    case None => None
  }

  /** `getProxiedPdfUrl`; `encode` stands for `encodeURIComponent`, whose
      character table is not modelled. */
  function ProxiedPdfUrl(url: string, encode: string -> string): (r: Option<string>)
    ensures r.Some? <==> DownloadLink(url).Some?
    ensures r.Some? ==> r.value == ProxyPrefix + encode(DownloadLink(url).value)
  {
    match DownloadLink(url)
    case Some(link) => Some(ProxyPrefix + encode(link))
    case None => None
  }

  /** A maximal run of id characters is exactly what `IdRun` reads. */
  lemma {:induction false} IdRunReads(s: string, k: nat, w: string)
    requires k + |w| <= |s| && s[k..k + |w|] == w
    requires forall j :: 0 <= j < |w| ==> IsIdChar(w[j])
    requires k + |w| == |s| || !IsIdChar(s[k + |w|])
    ensures IdRun(s, k) == w
    decreases |w|
  {
    if w != [] {
      assert s[k] == w[0];
      assert s[k + 1..k + 1 + |w[1..]|] == w[1..];
      IdRunReads(s, k + 1, w[1..]);
    }
  }

  /** The host part of a Drive link has no 'f', so `/file/d/` cannot start inside it. */
  lemma NoFileMatchInHost(s: string, j: nat)
    requires DriveHost <= s && j < |DriveHost|
    ensures !MatchesAt(FilePattern, s, j)
  {
    if j + |FilePattern| <= |s| {
      assert s[j..j + |FilePattern|][1] == s[j + 1];
      if j + 1 < |DriveHost| {
        assert s[j + 1] == DriveHost[j + 1];
        assert forall k :: 0 <= k < |DriveHost| ==> DriveHost[k] != 'f';
      } else {
        assert s[j..j + |FilePattern|][0] == s[j] == DriveHost[j] == 'm';
      }
    }
  }

  /** A canonical `https://drive.google.com/file/d/ID...` link yields `ID`, as long
      as the id is not followed by another id character. */
  lemma CanonicalLinkId(id: string, tail: string)
    requires IsDriveId(id)
    requires tail == [] || !IsIdChar(tail[0])
    ensures GetDriveId(EmbedPrefix + id + tail) == Some(id)
  {
    var s := EmbedPrefix + id + tail;
    var k := |EmbedPrefix|;
    assert DriveHost <= s;
    assert s[|DriveHost|..k] == FilePattern;
    assert s[k] == id[0];
    assert MatchesAt(FilePattern, s, |DriveHost|);
    forall j | 0 <= j < |DriveHost|
      ensures !MatchesAt(FilePattern, s, j)
    {
      NoFileMatchInHost(s, j);
    }
    assert s[k..k + |id|] == id;
    if tail != [] {
      assert s[k + |id|] == tail[0];
    }
    IdRunReads(s, k, id);
    assert FirstMatchFrom(FilePattern, s, 0) == Some(|DriveHost|);
  }

  /** Re-extracting the id from a preview link gives the original link's id. */
  lemma EmbedUrlKeepsId(url: string)
    ensures GetDriveId(EmbedUrl(url)) == GetDriveId(url)
  {
    if GetDriveId(url).Some? {
      CanonicalLinkId(GetDriveId(url).value, EmbedSuffix);
    }
  }

  /** `getEmbedUrl` is idempotent. */
  lemma EmbedUrlIdempotent(url: string)
    ensures EmbedUrl(EmbedUrl(url)) == EmbedUrl(url)
  {
    EmbedUrlKeepsId(url);
  }

  /** `getEmbedUrl`: a link with an id becomes the preview link of that id, and a
      link without one passes through; the result is itself a preview link
      whenever the input had an id. */
  lemma EmbedUrlShape(url: string)
    ensures GetDriveId(url).Some? ==>
      EmbedUrl(url) == EmbedPrefix + GetDriveId(url).value + EmbedSuffix
      && EmbedSuffix <= EmbedUrl(url)[|EmbedPrefix| + |GetDriveId(url).value|..]
    ensures GetDriveId(url).None? ==> EmbedUrl(url) == url
  {
  }

  /** For every id, a `/view` sharing link such as
      `https://drive.google.com/file/d/XYZ123/view` becomes the `/preview` link
      of the same id, and its download link carries `id=` and the id. */
  lemma ViewLinkExample(id: string)
    requires IsDriveId(id)
    ensures GetDriveId(EmbedPrefix + id + "/view") == Some(id)
    ensures EmbedUrl(EmbedPrefix + id + "/view") == DriveHost + "/file/d/" + id + "/preview"
    ensures DownloadLink(EmbedPrefix + id + "/view")
              == Some("https://drive.google.com/uc?export=download&id=" + id)
  {
    CanonicalLinkId(id, "/view");
  }
}

=== FILE: pipeline.dfy ===
/** The whole data path: the admin form's record goes out as a create
    payload, the sheet backend appends it, a later read returns it as JSON,
    the client sanitises the array and the catalog store shows it newest first. */
module Pipeline {
  import opened Wrappers
  import opened Catalog
  import SheetStore
  import Api
  import BookStore
  import AdminPanel

  /** A read entry as the JSON object the client receives; every cell is a string. */
  function ItemOf(b: SheetStore.SheetBook): Api.Item
  {
    Api.Object(map["id" := Api.Text(b.id), "title" := Api.Text(b.title),
                   "subject" := Api.Text(b.subject), "classLevel" := Api.Text(b.classLevel),
                   "subCategory" := Api.Text(b.subCategory),
                   "thumbnailUrl" := Api.Text(b.thumbnailUrl), "pdfUrl" := Api.Text(b.pdfUrl),
                   "description" := Api.Text(b.description),
                   "publishYear" := Api.Text(b.publishYear)])
  }

  /** The body of a read response, as the client's GET sees it. */
  function ReadReply(entries: seq<SheetStore.SheetBook>): (r: Api.Reply)
    ensures r.Array? && |r.items| == |entries|
    ensures forall i :: 0 <= i < |entries| ==> r.items[i] == ItemOf(entries[i])
  {
    Api.Array(seq(|entries|, i requires 0 <= i < |entries| => ItemOf(entries[i])))
  }

  /** The payload of a create request carries the record's fields, with
      `subCategory` and `publishYear` absent when the record has none. */
  lemma CreatePayloadFields(b: Book)
    requires b.subCategory.None? && b.description.Some? && b.publishYear.None?
    ensures var data := Api.CreatePayload(b);
            SheetStore.Action(data) == "create" &&
            SheetStore.OrDefault(data, "title", "") == b.title &&
            SheetStore.OrDefault(data, "subject", "") == b.subject &&
            SheetStore.OrDefault(data, "classLevel", "") == b.classLevel &&
            SheetStore.OrDefault(data, "subCategory", "") == "" &&
            SheetStore.OrDefault(data, "thumbnailUrl", "") == b.thumbnailUrl &&
            SheetStore.OrDefault(data, "pdfUrl", "") == b.pdfUrl &&
            SheetStore.OrDefault(data, "description", "") == b.description.value &&
            SheetStore.OrDefault(data, "publishYear", "") == ""
  {
    assert "subCategory" !in Api.BookFields(b) && "publishYear" !in Api.BookFields(b);
  }

  /** The sheet entry of a form record: its fields in column order, with
      empty cells for the two fields the form does not hold. */
  function EntryOf(b: Book): SheetStore.SheetBook
    requires b.description.Some?
  {
    SheetStore.SheetBook(b.id, b.title, b.subject, b.classLevel, "",
                         b.thumbnailUrl, b.pdfUrl, b.description.value, "")
  }

  /** The backend turns a create payload for a form record into a row whose
      entry holds exactly the record's fields. */
  lemma {:induction false} CreatedRowEntry(b: Book, generatedId: string, now: string)
    requires b.id != ""
    requires b.subCategory.None? && b.description.Some? && b.publishYear.None?
    ensures SheetStore.ToSheetBook(SheetStore.NewRow(Api.CreatePayload(b), generatedId, now)) == EntryOf(b)
  {
    var data := Api.CreatePayload(b);
    var row := SheetStore.NewRow(data, generatedId, now);
    CreatePayloadFields(b);
    assert "id" in data && data["id"] == b.id;
    assert row[0] == b.id;
    assert row[1] == b.title by { assert SheetStore.Header[1] == "title"; }
    assert row[2] == b.subject by { assert SheetStore.Header[2] == "subject"; }
    assert row[3] == b.classLevel by { assert SheetStore.Header[3] == "classLevel"; }
    assert row[4] == "" by { assert SheetStore.Header[4] == "subCategory"; }
    assert row[5] == b.thumbnailUrl by { assert SheetStore.Header[5] == "thumbnailUrl"; }
    assert row[6] == b.pdfUrl by { assert SheetStore.Header[6] == "pdfUrl"; }
    assert row[7] == b.description.value by { assert SheetStore.Header[7] == "description"; }
    assert row[8] == "" by { assert SheetStore.Header[8] == "publishYear"; }
  }

  /** The client's sanitiser recovers a form record from its sheet entry. */
  lemma EntrySanitizesBack(b: Book, randomId: string)
    requires b.id != "" && b.title != "" && b.subject != "" && b.classLevel != ""
    requires b.thumbnailUrl != "" && b.pdfUrl != ""
    requires b.subCategory.None? && b.description.Some? && b.publishYear.None?
    ensures Api.Sanitize(ItemOf(EntryOf(b)), randomId) == b
  {
    var item := ItemOf(EntryOf(b));
    assert Api.Field(item, "id") == Some(Api.Text(b.id));
    assert Api.Field(item, "title") == Some(Api.Text(b.title));
    assert Api.Field(item, "subject") == Some(Api.Text(b.subject));
    assert Api.Field(item, "classLevel") == Some(Api.Text(b.classLevel));
    assert Api.Field(item, "thumbnailUrl") == Some(Api.Text(b.thumbnailUrl));
    assert Api.Field(item, "pdfUrl") == Some(Api.Text(b.pdfUrl));
    assert Api.Field(item, "description") == Some(Api.Text(b.description.value));
    assert Api.Field(item, "publishYear") == Some(Api.Text(""));
  }

  /** The conditions under which a record survives the round trip unchanged:
      the fields the sanitiser would default are set, and the fields the form
      does not hold are absent. */
  predicate FormRecord(b: Book)
  {
    b.id != "" && b.title != "" && b.subject != "" && b.classLevel != ""
      && b.thumbnailUrl != "" && b.pdfUrl != ""
      && b.subCategory.None? && b.description.Some? && b.publishYear.None?
  }

  /** A create request for a form record makes the next read end with its entry. */
  lemma {:induction false} CreateRequestAppendsEntry(rows: seq<SheetStore.Row>, b: Book,
                                                     generatedIds: nat -> string, stamp: string)
    requires |rows| >= 1 && FormRecord(b)
    ensures var req := SheetStore.Request(map[], SheetStore.Json(Api.CreatePayload(b), None));
            SheetStore.ReadBooks(SheetStore.HandleRequest(Some(rows), req, generatedIds, stamp).rows)
              == SheetStore.ReadBooks(rows) + [EntryOf(b)]
  {
    var data := Api.CreatePayload(b);
    var req := SheetStore.Request(map[], SheetStore.Json(data, None));
    assert SheetStore.Merge(req) == data;
    CreatePayloadFields(b);
    assert SheetStore.HandleRequest(Some(rows), req, generatedIds, stamp)
             == SheetStore.Create(rows, data, generatedIds(0), stamp);
    assert "id" in data && data["id"] == b.id;
    SheetStore.CreateThenRead(rows, data, generatedIds(0), stamp);
    CreatedRowEntry(b, generatedIds(0), stamp);
  }

  /** A read whose last entry is a form record's entry loads that record first. */
  lemma {:induction false} LastEntryShownFirst(entries: seq<SheetStore.SheetBook>, b: Book, url: string,
                                               randomIds: nat -> string, store: BookStore.StoreState)
    requires url != "" && |entries| > 0 && FormRecord(b) && entries[|entries| - 1] == EntryOf(b)
    ensures var shown := BookStore.LoadBooks(store, url,
                           BookStore.Fetched(Api.FetchBooks(url, ReadReply(entries), randomIds)));
            shown.live && shown.books[0] == b
  {
    var last := |entries| - 1;
    var reply := ReadReply(entries);
    var fetched := Api.FetchBooks(url, reply, randomIds);
    assert forall i :: 0 <= i < |reply.items| ==> !reply.items[i].Nullish?;
    EntrySanitizesBack(b, randomIds(last));
    assert fetched[last] == b;
    BookStore.LiveIsNewestFirst(store, url, fetched);
  }

  /** A book added in the admin panel, once the backend has appended it and the
      catalog has been reloaded from the sheet, is the first book shown, with
      every field the form set. */
  lemma {:induction false} AddedBookShownFirst(
    st: AdminPanel.AdminState, storedUrl: Option<string>, now: nat,
    rows: seq<SheetStore.Row>, generatedIds: nat -> string, stamp: string,
    randomIds: nat -> string, store: BookStore.StoreState)
    requires st.scriptUrl != "" && !AdminPanel.Editing(st)
    requires st.form.title != "" && st.form.subject != "" && st.form.classLevel != "" && st.form.pdfUrl != ""
    requires |rows| >= 1
    ensures var step := AdminPanel.Submit(st, storedUrl, now, false);
            step.write.Some? && step.write.value.Create? && |step.posted| == 1 &&
            var req := SheetStore.Request(map[], SheetStore.Json(step.posted[0], None));
            var entries := SheetStore.ReadBooks(SheetStore.HandleRequest(Some(rows), req, generatedIds, stamp).rows);
            var url := Api.GetApiUrl(storedUrl);
            var shown := BookStore.LoadBooks(store, url,
                           BookStore.Fetched(Api.FetchBooks(url, ReadReply(entries), randomIds)));
            shown.live && shown.books[0] == step.write.value.book
  {
    var book := AdminPanel.Record(st, now);
    assert AdminPanel.Submit(st, storedUrl, now, false).posted == [Api.CreatePayload(book)];
    assert FormRecord(book);
    CreateRequestAppendsEntry(rows, book, generatedIds, stamp);
    var req := SheetStore.Request(map[], SheetStore.Json(Api.CreatePayload(book), None));
    var entries := SheetStore.ReadBooks(SheetStore.HandleRequest(Some(rows), req, generatedIds, stamp).rows);
    LastEntryShownFirst(entries, book, Api.GetApiUrl(storedUrl), randomIds, store);
  }

  /** With the configured URL a catalog load always ends idle, and the list is
      live exactly when the reply is a non-empty array without null elements. */
  lemma ConfiguredLoad(st: BookStore.StoreState, stored: Option<string>, reply: Api.Reply, randomIds: nat -> string)
    ensures var url := Api.GetApiUrl(stored);
            var r := BookStore.LoadBooks(st, url, BookStore.Fetched(Api.FetchBooks(url, reply, randomIds)));
            !r.loading &&
            (r.live <==> reply.Array? && |reply.items| > 0 &&
                         forall i :: 0 <= i < |reply.items| ==> !reply.items[i].Nullish?)
  {
  }
}

=== FILE: reader_page.dfy ===
/** Opening the reader route (`pages/PdfViewer.tsx`): the book is looked up in
    the bundled catalog, its link is turned into a proxied document URL, and
    the viewer starts in its initial state. */
module ReaderPage {
  import opened Wrappers
  import opened Catalog
  import DriveLinks
  import Viewer

  /** The reader for `bookId`, or None when the page renders nothing (unknown
      id). The page looks the id up in the bundled catalog; `books` is that
      catalog. `encode` stands for `encodeURIComponent`. */
  function Open(books: seq<Book>, bookId: string, windowWidth: int, encode: string -> string): (r: Option<Viewer.ViewerState>)
    ensures r.Some? <==> exists i :: 0 <= i < |books| && books[i].id == bookId
    ensures r.Some? ==>
              (r.value.hasDocument <==> DriveLinks.GetDriveId(FindById(books, bookId).value.pdfUrl).Some?)
    ensures r.Some? ==> r.value.mode == Viewer.Custom && r.value.page == 1 && r.value.scale == 1.0
                        && r.value.rotation == 0 && r.value.loading && r.value.error.None?
  {
    match FindById(books, bookId)
    case None => None
    case Some(b) => Some(Viewer.Init(DriveLinks.ProxiedPdfUrl(b.pdfUrl, encode).Some?, windowWidth))
  }

  /** A reader that opens starts in a state every handler preserves. */
  lemma OpenedReaderValid(books: seq<Book>, bookId: string, windowWidth: int, encode: string -> string)
    requires Open(books, bookId, windowWidth, encode).Some?
    ensures Viewer.Valid(Open(books, bookId, windowWidth, encode).value)
  {
    Viewer.InitValid(DriveLinks.ProxiedPdfUrl(FindById(books, bookId).value.pdfUrl, encode).Some?, windowWidth);
  }

  /** A book whose link is a canonical `/file/d/ID` link gets a document. */
  lemma CanonicalLinkHasDocument(books: seq<Book>, bookId: string, id: string, tail: string,
                                  windowWidth: int, encode: string -> string)
    requires FindById(books, bookId).Some?
    requires DriveLinks.IsDriveId(id) && (tail == [] || !DriveLinks.IsIdChar(tail[0]))
    requires FindById(books, bookId).value.pdfUrl == DriveLinks.EmbedPrefix + id + tail
    ensures Open(books, bookId, windowWidth, encode).Some? && Open(books, bookId, windowWidth, encode).value.hasDocument
  {
    DriveLinks.CanonicalLinkId(id, tail);
  }
}

=== FILE: search_page.dfy ===
/** The search page (`pages/SearchResults.tsx`): a case-insensitive substring
    match of the `q` parameter over the bundled catalog. */
module SearchPage {
  import opened Wrappers
  import opened Catalog
  import opened Strings
  import Seqs
  import Bangla

  /** The match applied to one book, `q` being the already lowercased query.
      The grade is matched without lowercasing, through `"class " + classLevel`
      or by equality. */
  predicate Matches(b: Book, q: string)
    ensures q == "" ==> Matches(b, q)
    ensures b.classLevel == q ==> Matches(b, q)
  {
    ContainsEmpty(Lower(b.title));
    Contains(Lower(b.title), q) || Contains(Lower(b.subject), q)
      || Contains("class " + b.classLevel, q) || b.classLevel == q
  }

  /** `searchParams.get('q') || ''` */
  function Query(param: Option<string>): (r: string)
    ensures param.Some? ==> r == param.value
    ensures param.None? ==> r == ""
  {
    param.GetOr("")
  }

  /** The books the page lists: all of them for an empty query, otherwise
      those that match the lowercased query, in catalog order. */
  function Search(books: seq<Book>, param: Option<string>): (r: seq<Book>)
    ensures Query(param) == "" ==> r == books
    ensures forall i :: 0 <= i < |r| ==> r[i] in books
    ensures Query(param) != "" ==> forall i :: 0 <= i < |r| ==> Matches(r[i], Lower(Query(param)))
    ensures forall i :: 0 <= i < |books| && Matches(books[i], Lower(Query(param))) ==> books[i] in r
  {
    var query := Query(param);
    var p := (b: Book) => query == "" || Matches(b, Lower(query));
    var r := Seqs.Filter(p, books);
    if query == "" then
      Seqs.FilterAll(p, books);
      r
    else
      r
  }

  /** The search keeps catalog order, and every copy of a matching book. */
  lemma SearchKeepsOrder(books: seq<Book>, param: Option<string>, b: Book)
    ensures Seqs.IsSubseq(Search(books, param), books)
    ensures multiset(Search(books, param))[b] == if Matches(b, Lower(Query(param))) then multiset(books)[b] else 0
  {
    var query := Query(param);
    var p := (x: Book) => query == "" || Matches(x, Lower(query));
    Seqs.FilterIsSubseq(p, books);
    Seqs.FilterCount(p, books, b);
  }

  /** The exact-grade test adds nothing: a grade equal to the query already
      occurs in `"class " + classLevel`. */
  lemma ExactGradeIsRedundant(b: Book, q: string)
    ensures Matches(b, q) <==>
              Contains(Lower(b.title), q) || Contains(Lower(b.subject), q) || Contains("class " + b.classLevel, q)
  {
    if b.classLevel == q {
      ContainsInfix("class ", q, "");
      assert "class " + q + "" == "class " + b.classLevel;
    }
  }

  /** The count line: the number shown reads back as the number of results. */
  function ResultCountLabel(books: seq<Book>, param: Option<string>): (r: string)
    ensures |r| == |NatToString(|Search(books, param)|)|
    ensures forall i :: 0 <= i < |r| ==> Bangla.IsBanglaDigit(r[i])
    ensures ParseNat(Bangla.FromBangla(r)) == |Search(books, param)|
  {
    Bangla.BanglaNumeralReadsBack(|Search(books, param)|);
    Bangla.BanglaNumeral(|Search(books, param)|)
  }
}

=== FILE: seqs.dfy ===
/** Order-preserving operations on sequences shared by the catalog pages, the
    sheet store and the catalog store: filtering, first-match search, reversal. */
module Seqs {
  import opened Wrappers

  /** `s.filter(p)`: the elements of `s` that satisfy `p`, in their original order. */
  function Filter<T>(p: T -> bool, s: seq<T>): (r: seq<T>)
    ensures |r| <= |s|
    ensures forall i :: 0 <= i < |r| ==> r[i] in s && p(r[i])
    ensures forall i :: 0 <= i < |s| && p(s[i]) ==> s[i] in r
  {
    if s == [] then []
    else if p(s[0]) then [s[0]] + Filter(p, s[1..])
    else Filter(p, s[1..])
  }

  /** `a` can be obtained from `b` by deleting elements (order kept). */
  predicate IsSubseq<T(==)>(a: seq<T>, b: seq<T>)
    decreases |b|
  {
    if a == [] then true
    else if b == [] then false
    else (a[0] == b[0] && IsSubseq(a[1..], b[1..])) || IsSubseq(a, b[1..])
  }

  /** Filtering never reorders: the result is a subsequence of the input. */
  lemma {:induction false} FilterIsSubseq<T>(p: T -> bool, s: seq<T>)
    ensures IsSubseq(Filter(p, s), s)
  {
    if s != [] {
      FilterIsSubseq(p, s[1..]);
      if p(s[0]) {
        assert Filter(p, s) == [s[0]] + Filter(p, s[1..]);
        assert Filter(p, s)[1..] == Filter(p, s[1..]);
      } else {
        var f := Filter(p, s);
        if f != [] {
          assert IsSubseq(f, s[1..]);
        }
      }
    }
  }

  /** Filtering distributes over concatenation. */
  lemma {:induction false} FilterAppend<T>(p: T -> bool, a: seq<T>, b: seq<T>)
    ensures Filter(p, a + b) == Filter(p, a) + Filter(p, b)
  {
    if a == [] {
      assert a + b == b;
    } else {
      assert (a + b)[1..] == a[1..] + b;
      FilterAppend(p, a[1..], b);
    }
  }

  /** Filtering keeps every copy of a kept value and drops every copy of a
      rejected one. */
  lemma {:induction false} FilterCount<T>(p: T -> bool, s: seq<T>, x: T)
    ensures multiset(Filter(p, s))[x] == if p(x) then multiset(s)[x] else 0
  {
    if s != [] {
      FilterCount(p, s[1..], x);
      assert s == [s[0]] + s[1..];
      assert multiset(s) == multiset([s[0]]) + multiset(s[1..]);
      if p(s[0]) {
        assert multiset(Filter(p, s)) == multiset([s[0]]) + multiset(Filter(p, s[1..]));
      }
    }
  }

  /** A predicate that holds everywhere keeps the whole sequence. */
  lemma {:induction false} FilterAll<T>(p: T -> bool, s: seq<T>)
    requires forall i :: 0 <= i < |s| ==> p(s[i])
    ensures Filter(p, s) == s
  {
    if s != [] {
      FilterAll(p, s[1..]);
    }
  }

  /** Number of elements of `s` that satisfy `p`. */
  function Count<T>(p: T -> bool, s: seq<T>): nat
  {
    |Filter(p, s)|
  }

  /** Index of the first element at or after `from` that satisfies `p` (JavaScript's `findIndex`). */
  function FindFirst<T>(p: T -> bool, s: seq<T>, from: nat): (r: Option<nat>)
    requires from <= |s|
    decreases |s| - from
    ensures r.Some? ==> from <= r.value < |s| && p(s[r.value])
    ensures r.Some? ==> forall j :: from <= j < r.value ==> !p(s[j])
    ensures r.None? <==> forall j :: from <= j < |s| ==> !p(s[j])
  {
    if from == |s| then None
    else if p(s[from]) then Some(from)
    else FindFirst(p, s, from + 1)
  }

  /** `s.reverse()` */
  function Reverse<T>(s: seq<T>): (r: seq<T>)
    ensures |r| == |s|
    ensures forall i :: 0 <= i < |s| ==> r[i] == s[|s| - 1 - i]
  {
    if s == [] then [] else Reverse(s[1..]) + [s[0]]
  }

  /** Reversing twice restores the original order. */
  lemma ReverseInvolutive<T>(s: seq<T>)
    ensures Reverse(Reverse(s)) == s
  {
  }
}

=== FILE: sheet_store.dfy ===
/** The spreadsheet web-app backend (`google_apps_script.js`): one request
    handler that dispatches on `action` over a sheet of 10-column rows whose
    first row is the header. The sheet is a value here; the handler returns the
    new rows together with the JSON status it would send. */
module SheetStore {
  import opened Wrappers
  import Seqs

  /** A sheet row: exactly the ten columns of the header. */
  type Row = r: seq<string> | |r| == 10 witness ["", "", "", "", "", "", "", "", "", ""]

  const Header: Row := ["id", "title", "subject", "classLevel", "subCategory",
                        "thumbnailUrl", "pdfUrl", "description", "publishYear", "createdAt"]

  const IdCol: nat := 0
  const PublishYearCol: nat := 8
  const CreatedAtCol: nat := 9

  /** The POST body: absent, not JSON (`JSON.parse` throws), or a JSON object
      whose string fields are `fields` and whose `books` array (seeding only) is `books`. */
  datatype Body =
    | NoBody
    | Unparsable
    | Json(fields: map<string, string>, books: Option<seq<map<string, string>>>)

  datatype Request = Request(params: map<string, string>, body: Body)

  /** A book as the read action emits it: columns 0..8 of its row. */
  datatype SheetBook = SheetBook(
    id: string, title: string, subject: string, classLevel: string, subCategory: string,
    thumbnailUrl: string, pdfUrl: string, description: string, publishYear: string)

  /** The JSON object sent back. */
  datatype Response =
    | Books(items: seq<SheetBook>)      // read
    | Created(id: string)               // {status:'success', id}
    | Seeded(count: nat)                // {status:'success', count}
    | Success                           // {status:'success'}
    | NotFound                          // {status:'not_found'}
    | Failed                            // {status:'error', message}
    | NoOutput                          // unknown action: the handler returns nothing

  datatype Outcome = Outcome(rows: seq<Row>, response: Response)

  function BodyFields(body: Body): map<string, string>
  {
    if body.Json? then body.fields else map[]
  }

  /** `{ ...params, ...postData }`: body fields override query parameters. */
  function Merge(req: Request): (data: map<string, string>)
    ensures forall k :: k in BodyFields(req.body) ==> k in data && data[k] == BodyFields(req.body)[k]
    ensures forall k :: k in req.params && k !in BodyFields(req.body) ==> k in data && data[k] == req.params[k]
    ensures forall k :: k in data ==> k in req.params || k in BodyFields(req.body)
  {
    req.params + BodyFields(req.body)
  }

  /** `data[key] || fallback` for string values. */
  function OrDefault(data: map<string, string>, key: string, fallback: string): string
  {
    if key in data && data[key] != "" then data[key] else fallback
  }

  /** `data.action || 'read'` */
  function Action(data: map<string, string>): (r: string)
    ensures r != ""
    ensures "action" in data && data["action"] != "" ==> r == data["action"]
    ensures "action" !in data || data["action"] == "" ==> r == "read"
  {
    OrDefault(data, "action", "read")
  }

  function ToSheetBook(row: Row): SheetBook
  {
    SheetBook(row[0], row[1], row[2], row[3], row[4], row[5], row[6], row[7], row[8])
  }

  /** The books of a run of data rows: rows with an empty id cell are skipped. */
  function Entries(rows: seq<Row>): (r: seq<SheetBook>)
    ensures |r| <= |rows|
    ensures forall i :: 0 <= i < |r| ==> r[i].id != ""
  {
    if rows == [] then []
    else if rows[0][IdCol] != "" then [ToSheetBook(rows[0])] + Entries(rows[1..])
    else Entries(rows[1..])
  }

  /** Exactly the rows with a non-empty id cell show up among the entries. */
  lemma {:induction false} EntriesMembers(rows: seq<Row>)
    ensures forall i :: 0 <= i < |rows| && rows[i][IdCol] != "" ==> ToSheetBook(rows[i]) in Entries(rows)
    ensures forall b :: b in Entries(rows) ==>
              exists i :: 0 <= i < |rows| && rows[i][IdCol] != "" && b == ToSheetBook(rows[i])
  {
    if rows != [] {
      EntriesMembers(rows[1..]);
      forall b | b in Entries(rows)
        ensures exists i :: 0 <= i < |rows| && rows[i][IdCol] != "" && b == ToSheetBook(rows[i])
      {
        if b !in Entries(rows[1..]) {
          assert b == ToSheetBook(rows[0]) && rows[0][IdCol] != "";
        } else {
          var i :| 0 <= i < |rows[1..]| && rows[1..][i][IdCol] != "" && b == ToSheetBook(rows[1..][i]);
          assert rows[i + 1] == rows[1..][i];
        }
      }
    }
  }

  /** Entries of a concatenation are the concatenated entries (order kept). */
  lemma {:induction false} EntriesAppend(a: seq<Row>, b: seq<Row>)
    ensures Entries(a + b) == Entries(a) + Entries(b)
  {
    if a == [] {
      assert a + b == b;
    } else {
      assert (a + b)[1..] == a[1..] + b;
      EntriesAppend(a[1..], b);
    }
  }

  /** The read action: every row after the header with a non-empty id, in sheet order. */
  function ReadBooks(rows: seq<Row>): (r: seq<SheetBook>)
    ensures |rows| <= 1 ==> r == []
    ensures |rows| > 1 ==> r == Entries(rows[1..])
  {
    if |rows| <= 1 then [] else Entries(rows[1..])
  }

  /** The row the create action appends (and seeding writes per book): missing
      or empty fields become '', a missing id becomes a generated one, and the
      last column records the creation time. */
  function NewRow(data: map<string, string>, generatedId: string, now: string): (row: Row)
    ensures row[IdCol] == OrDefault(data, "id", generatedId)
    ensures forall c :: 1 <= c <= PublishYearCol ==> row[c] == OrDefault(data, Header[c], "")
    ensures row[CreatedAtCol] == now
  {
    [OrDefault(data, "id", generatedId),
     OrDefault(data, "title", ""),
     OrDefault(data, "subject", ""),
     OrDefault(data, "classLevel", ""),
     OrDefault(data, "subCategory", ""),
     OrDefault(data, "thumbnailUrl", ""),
     OrDefault(data, "pdfUrl", ""),
     OrDefault(data, "description", ""),
     OrDefault(data, "publishYear", ""),
     now]
  }

  /** The create action: exactly one row appended, existing rows untouched. */
  function Create(rows: seq<Row>, data: map<string, string>, generatedId: string, now: string): (r: Outcome)
    ensures |r.rows| == |rows| + 1
    ensures r.rows[..|rows|] == rows
    ensures r.rows[|rows|] == NewRow(data, generatedId, now)
    ensures r.response == Created(OrDefault(data, "id", generatedId))
  {
    var row := NewRow(data, generatedId, now);
    Outcome(rows + [row], Created(row[IdCol]))
  }

  /** The rows written for `books`, the i-th using the (offset+i)-th generated id. */
  function SeedRows(books: seq<map<string, string>>, generatedIds: nat -> string, now: string, offset: nat): (r: seq<Row>)
    ensures |r| == |books|
    ensures forall i :: 0 <= i < |books| ==> r[i] == NewRow(books[i], generatedIds(offset + i), now)
    decreases |books|
  {
    if books == [] then []
    else [NewRow(books[0], generatedIds(offset), now)] + SeedRows(books[1..], generatedIds, now, offset + 1)
  }

  /** The seeding action: the sheet is cleared, the header rewritten and one
      row per given book written below it, in order. */
  function Seed(books: seq<map<string, string>>, generatedIds: nat -> string, now: string): (r: Outcome)
    ensures |r.rows| == 1 + |books|
    ensures r.rows[0] == Header
    ensures forall i :: 0 <= i < |books| ==> r.rows[i + 1] == NewRow(books[i], generatedIds(i), now)
    ensures r.response == Seeded(|books|)
  {
    Outcome([Header] + SeedRows(books, generatedIds, now, 0), Seeded(|books|))
  }

  /** Index of the first data row (after the header) whose id cell equals `id`. */
  function FirstRowWithId(rows: seq<Row>, id: string): (r: Option<nat>)
    ensures r.Some? ==> 1 <= r.value < |rows| && rows[r.value][IdCol] == id
    ensures r.Some? ==> forall j :: 1 <= j < r.value ==> rows[j][IdCol] != id
    ensures r.None? <==> forall j :: 1 <= j < |rows| ==> rows[j][IdCol] != id
  {
    if |rows| == 0 then None else Seqs.FindFirst((row: Row) => row[IdCol] == id, rows, 1)
  }

  /** `if (data.f !== undefined) setValue(data.f)` for title .. description. */
  function Overwrite(data: map<string, string>, key: string, current: string): string
  {
    if key in data then data[key] else current
  }

  /** A row after the update action: the title .. description columns that the
      request provides (even as '') are replaced; id, publishYear and createdAt
      are never touched. */
  function UpdateRow(row: Row, data: map<string, string>): (r: Row)
    ensures r[IdCol] == row[IdCol] && r[PublishYearCol] == row[PublishYearCol]
    ensures r[CreatedAtCol] == row[CreatedAtCol]
    ensures forall c :: 1 <= c <= 7 && Header[c] in data ==> r[c] == data[Header[c]]
    ensures forall c :: 1 <= c <= 7 && Header[c] !in data ==> r[c] == row[c]
  {
    [row[0],
     Overwrite(data, "title", row[1]),
     Overwrite(data, "subject", row[2]),
     Overwrite(data, "classLevel", row[3]),
     Overwrite(data, "subCategory", row[4]),
     Overwrite(data, "thumbnailUrl", row[5]),
     Overwrite(data, "pdfUrl", row[6]),
     Overwrite(data, "description", row[7]),
     row[8],
     row[9]]
  }

  /** The update action. */
  function Update(rows: seq<Row>, data: map<string, string>): (r: Outcome)
    ensures OrDefault(data, "id", "") == "" ==> r == Outcome(rows, Failed)
    ensures r.response == NotFound ==> r.rows == rows
    ensures r.response.Success? ==>
              && OrDefault(data, "id", "") != "" && FirstRowWithId(rows, data["id"]).Some?
              && var k := FirstRowWithId(rows, data["id"]).value;
              && |r.rows| == |rows|
              && r.rows[k] == UpdateRow(rows[k], data)
              && forall j :: 0 <= j < |rows| && j != k ==> r.rows[j] == rows[j]
    ensures OrDefault(data, "id", "") != "" ==>
              (r.response.Success? <==> FirstRowWithId(rows, data["id"]).Some?)
    ensures r.response in {Success, NotFound, Failed}
  {
    if OrDefault(data, "id", "") == "" then Outcome(rows, Failed)
    else
      match FirstRowWithId(rows, data["id"])
      case None => Outcome(rows, NotFound)
      case Some(k) => Outcome(rows[k := UpdateRow(rows[k], data)], Success)
  }

  /** The delete action: only the first row with that id goes. A missing id
      never equals a cell, so it reports `not_found`. */
  function Delete(rows: seq<Row>, data: map<string, string>): (r: Outcome)
    ensures "id" !in data ==> r == Outcome(rows, NotFound)
    ensures r.response == NotFound ==> r.rows == rows
    ensures r.response.Success? ==>
              && "id" in data && FirstRowWithId(rows, data["id"]).Some?
              && var k := FirstRowWithId(rows, data["id"]).value;
              r.rows == rows[..k] + rows[k + 1..]
    ensures "id" in data ==> (r.response.Success? <==> FirstRowWithId(rows, data["id"]).Some?)
    ensures r.response in {Success, NotFound}
  {
    if "id" !in data then Outcome(rows, NotFound)
    else
      match FirstRowWithId(rows, data["id"])
      case None => Outcome(rows, NotFound)
      case Some(k) => Outcome(rows[..k] + rows[k + 1..], Success)
  }

  /** The rows an action works on: a missing sheet is created with the header row. */
  function SheetRows(sheet: Option<seq<Row>>): (rows: seq<Row>)
    ensures sheet.None? ==> rows == [Header]
    ensures sheet.Some? ==> rows == sheet.value
  {
    if sheet.None? then [Header] else sheet.value
  }

  /** The sheet is missing (it will be created with the header) or starts with the header row. */
  predicate HasHeader(sheet: Option<seq<Row>>)
  {
    sheet.None? || (|sheet.value| >= 1 && sheet.value[0] == Header)
  }

  /** `handleRequest`. `sheet` is None when the `Books` sheet does not exist
      (it is then created with the header row); `generatedIds` stands for
      successive `Utilities.getUuid()` results and `now` for the timestamp. */
  function HandleRequest(sheet: Option<seq<Row>>, req: Request,
                         generatedIds: nat -> string, now: string): (r: Outcome)
    ensures req.body.Unparsable? ==> r.response == Failed
    ensures HasHeader(sheet) ==> |r.rows| >= 1 && r.rows[0] == Header
    ensures r.response.Books? || r.response.Failed? || r.response.NotFound? || r.response.NoOutput? ==>
              r.rows == SheetRows(sheet)
    ensures !req.body.Unparsable? && Action(Merge(req)) == "read" ==>
              r == Outcome(SheetRows(sheet), Books(ReadBooks(SheetRows(sheet))))
    ensures !req.body.Unparsable? && Action(Merge(req)) == "create" ==>
              r == Create(SheetRows(sheet), Merge(req), generatedIds(0), now)
    ensures !req.body.Unparsable? && Action(Merge(req)) == "reset_and_seed" ==>
              r == Seed(if req.body.Json? && req.body.books.Some? then req.body.books.value else [], generatedIds, now)
    ensures !req.body.Unparsable? && Action(Merge(req)) == "update" ==> r == Update(SheetRows(sheet), Merge(req))
    ensures !req.body.Unparsable? && Action(Merge(req)) == "delete" ==> r == Delete(SheetRows(sheet), Merge(req))
    ensures !req.body.Unparsable? && Action(Merge(req)) !in {"read", "create", "reset_and_seed", "update", "delete"} ==>
              r == Outcome(SheetRows(sheet), NoOutput)
  {
    var rows := SheetRows(sheet);
    if req.body.Unparsable? then Outcome(rows, Failed)
    else
      var data := Merge(req);
      var action := Action(data);
      if action == "read" then Outcome(rows, Books(ReadBooks(rows)))
      else if action == "create" then Create(rows, data, generatedIds(0), now)
      else if action == "reset_and_seed" then
        Seed(if req.body.Json? && req.body.books.Some? then req.body.books.value else [],
             generatedIds, now)
      else if action == "update" then Update(rows, data)
      else if action == "delete" then Delete(rows, data)
      else Outcome(rows, NoOutput)
  }

  /** Without an action (or with an empty one) the request is a read, and a
      read never changes the sheet. */
  lemma DefaultActionIsRead(rows: seq<Row>, req: Request, generatedIds: nat -> string, now: string)
    requires !req.body.Unparsable?
    requires "action" !in Merge(req) || Merge(req)["action"] == ""
    ensures HandleRequest(Some(rows), req, generatedIds, now) == Outcome(rows, Books(ReadBooks(rows)))
  {
  }

  /** An action field in the POST body wins over the query parameter. */
  lemma BodyActionWins(req: Request)
    requires req.body.Json? && "action" in req.body.fields && req.body.fields["action"] != ""
    ensures Action(Merge(req)) == req.body.fields["action"]
  {
  }

  /** A missing sheet is created with the header before any action runs. */
  lemma MissingSheetGetsHeader(req: Request, generatedIds: nat -> string, now: string)
    requires !req.body.Unparsable?
    requires Action(Merge(req)) == "read"
    ensures HandleRequest(None, req, generatedIds, now) == Outcome([Header], Books([]))
  {
  }

  /** A created book is read back at the end of the list, with its fields. */
  lemma {:induction false} CreateThenRead(rows: seq<Row>, data: map<string, string>, generatedId: string, now: string)
    requires |rows| >= 1
    requires OrDefault(data, "id", generatedId) != ""
    ensures ReadBooks(Create(rows, data, generatedId, now).rows)
              == ReadBooks(rows) + [ToSheetBook(NewRow(data, generatedId, now))]
  {
    var row := NewRow(data, generatedId, now);
    assert (rows + [row])[1..] == rows[1..] + [row];
    EntriesAppend(rows[1..], [row]);
    assert Entries([row]) == [ToSheetBook(row)];
  }

  /** The entries of the data rows around row `k`. */
  lemma EntriesAround(rows: seq<Row>, k: nat)
    requires 1 <= k < |rows|
    ensures Entries(rows[1..]) == Entries(rows[1..k]) + Entries([rows[k]]) + Entries(rows[k + 1..])
  {
    assert rows[1..] == rows[1..k] + [rows[k]] + rows[k + 1..];
    EntriesAppend(rows[1..k] + [rows[k]], rows[k + 1..]);
    EntriesAppend(rows[1..k], [rows[k]]);
  }

  /** What the read action returns once data row `k` is removed. */
  lemma DeletedReads(rows: seq<Row>, k: nat)
    requires 1 <= k < |rows|
    ensures rows[k][IdCol] != "" ==> |ReadBooks(rows[..k] + rows[k + 1..])| + 1 == |ReadBooks(rows)|
    ensures rows[k][IdCol] == "" ==> ReadBooks(rows[..k] + rows[k + 1..]) == ReadBooks(rows)
  {
    var rows' := rows[..k] + rows[k + 1..];
    var a := rows[1..k];
    var b := rows[k + 1..];
    assert rows'[1..] == a + b;
    EntriesAround(rows, k);
    EntriesAppend(a, b);
    var mid := Entries([rows[k]]);
    assert Entries(rows[1..]) == Entries(a) + mid + Entries(b);
    assert Entries(rows'[1..]) == Entries(a) + Entries(b);
    if |rows'| <= 1 {
      assert a + b == [];
      assert ReadBooks(rows') == [];
    } else {
      assert ReadBooks(rows') == Entries(a) + Entries(b);
    }
    assert ReadBooks(rows) == Entries(a) + mid + Entries(b);
    if rows[k][IdCol] != "" {
      assert |mid| == 1;
    } else {
      assert mid == [];
    }
  }

  /** Deleting a row with a non-empty id removes exactly one book from what the
      read action returns; deleting by the empty id removes a blank row and the
      read result is unchanged. */
  lemma {:induction false} DeleteThenRead(rows: seq<Row>, data: map<string, string>)
    requires Delete(rows, data).response.Success?
    ensures data["id"] != "" ==> |ReadBooks(Delete(rows, data).rows)| + 1 == |ReadBooks(rows)|
    ensures data["id"] == "" ==> ReadBooks(Delete(rows, data).rows) == ReadBooks(rows)
  {
    var k := FirstRowWithId(rows, data["id"]).value;
    var rows' := Delete(rows, data).rows;
    DeletedReads(rows, k);
    assert rows' == rows[..k] + rows[k + 1..];
  }

  /** Updating keeps the number of books the read action returns. */
  lemma {:induction false} UpdateThenReadLength(rows: seq<Row>, data: map<string, string>)
    requires Update(rows, data).response.Success?
    ensures |ReadBooks(Update(rows, data).rows)| == |ReadBooks(rows)|
  {
    var k := FirstRowWithId(rows, data["id"]).value;
    var rows' := Update(rows, data).rows;
    EntriesAround(rows, k);
    EntriesAround(rows', k);
    assert rows'[1..k] == rows[1..k];
    assert rows'[k + 1..] == rows[k + 1..];
  }
}

=== FILE: strings.dfy ===
/** String helpers with JavaScript meaning: `includes`, `indexOf`, ASCII
    `toLowerCase`, and decimal `toString` / `parseInt` of naturals. */
module Strings {
  import opened Wrappers

  /** `p` occurs in `s` starting at index `i`. */
  predicate OccursAt(p: string, s: string, i: nat)
  {
    i + |p| <= |s| && s[i..i + |p|] == p
  }

  /** Leftmost occurrence of `p` in `s` at or after `from`. */
  function IndexOfFrom(s: string, p: string, from: nat): (r: Option<nat>)
    requires from <= |s|
    decreases |s| - from
    ensures r.Some? ==> from <= r.value && OccursAt(p, s, r.value)
    ensures r.Some? ==> forall j :: from <= j < r.value ==> !OccursAt(p, s, j)
    ensures r.None? <==> forall j :: from <= j ==> !OccursAt(p, s, j)
  {
    if OccursAt(p, s, from) then Some(from)
    else if from == |s| then None
    else IndexOfFrom(s, p, from + 1)
  }

  /** `s.indexOf(p)`, with `None` for JavaScript's -1. */
  function IndexOf(s: string, p: string): (r: Option<nat>)
    ensures r.Some? ==> OccursAt(p, s, r.value)
    ensures r.Some? ==> forall j: nat :: j < r.value ==> !OccursAt(p, s, j)
    ensures r.None? <==> forall j: nat :: !OccursAt(p, s, j)
  {
    IndexOfFrom(s, p, 0)
  }

  /** `s.includes(p)` */
  predicate Contains(s: string, p: string)
  {
    IndexOf(s, p).Some?
  }

  /** The empty string is contained in every string, as in JavaScript. */
  lemma ContainsEmpty(s: string)
    ensures Contains(s, "")
  {
    assert OccursAt("", s, 0);
  }

  /** Every string contains itself, and a string extended on both sides. */
  lemma ContainsInfix(a: string, p: string, b: string)
    ensures Contains(a + p + b, p)
  {
    assert (a + p + b)[|a|..|a| + |p|] == p;
    assert OccursAt(p, a + p + b, |a|);
  }

  /** ASCII `toLowerCase` of one character; every other character is kept. */
  function LowerChar(c: char): char
  {
    if 'A' <= c <= 'Z' then (c as int + 32) as char else c
  }

  /** `s.toLowerCase()` restricted to the ASCII range. */
  function Lower(s: string): (r: string)
    ensures |r| == |s|
    ensures forall i :: 0 <= i < |s| ==> r[i] == LowerChar(s[i])
  {
    seq(|s|, i requires 0 <= i < |s| => LowerChar(s[i]))
  }

  /** Lower-casing is idempotent. */
  lemma LowerIdempotent(s: string)
    ensures Lower(Lower(s)) == Lower(s)
  {
  }

  predicate IsDigit(c: char)
  {
    '0' <= c <= '9'
  }

  function DigitChar(d: nat): (c: char)
    requires d < 10
    ensures IsDigit(c)
  {
    ('0' as int + d) as char
  }

  function DigitValue(c: char): (d: nat)
    requires IsDigit(c)
    ensures d < 10 && DigitChar(d) == c
  {
    c as int - '0' as int
  }

  /** `n.toString()` for a natural number. */
  function NatToString(n: nat): (r: string)
    ensures |r| > 0
    ensures forall i :: 0 <= i < |r| ==> IsDigit(r[i])
    ensures n > 0 ==> r[0] != '0'
  {
    if n < 10 then [DigitChar(n)] else NatToString(n / 10) + [DigitChar(n % 10)]
  }

  /** `n.toString()` for an integer (a leading '-' for negatives). */
  function IntToString(n: int): (r: string)
    ensures |r| > 0
  {
    if n < 0 then "-" + NatToString(-n) else NatToString(n)
  }

  /** Decimal value of a string of digits (`parseInt(s, 10)`). */
  function ParseNat(s: string): nat
    requires forall i :: 0 <= i < |s| ==> IsDigit(s[i])
  {
    if s == [] then 0 else ParseNat(s[..|s| - 1]) * 10 + DigitValue(s[|s| - 1])
  }

  /** Parsing the decimal rendering gives the number back. */
  lemma {:induction false} ParseNatToString(n: nat)
    ensures ParseNat(NatToString(n)) == n
  {
    var s := NatToString(n);
    if n >= 10 {
      ParseNatToString(n / 10);
      assert s[..|s| - 1] == NatToString(n / 10);
    }
  }

  /** Distinct numbers have distinct decimal renderings. */
  lemma NatToStringInjective(m: nat, n: nat)
    requires NatToString(m) == NatToString(n)
    ensures m == n
  {
    ParseNatToString(m);
    ParseNatToString(n);
  }
}

=== FILE: viewer.dfy ===
/** The reader's interaction state (`pages/PdfViewer.tsx`) as a record and one
    pure transition per handler: page navigation, button zoom, rotation, the
    two-phase pinch gesture, width fitting on resize, document load events and
    the custom/drive display switch. */
module Viewer {
  import opened Wrappers

  datatype ViewMode = Custom | Drive

  /** What `touchStartRef` records when a two-finger gesture starts. */
  datatype PinchStart = PinchStart(dist: real, scale: real)

  datatype ViewerState = ViewerState(
    mode: ViewMode,
    hasDocument: bool,          // a proxied PDF link exists for the book
    numPages: Option<nat>,
    page: int,
    scale: real,                // the committed render scale
    rotation: int,
    loading: bool,
    error: Option<string>,
    pdfWidth: int,
    prevWidth: int,             // `prevContainerWidth`
    pinch: Option<PinchStart>,  // `touchStartRef`
    transform: Option<real>)    // the content's CSS `scale(r)`; None when unset or 'none'

  const MinScale: real := 1.0
  const MaxScale: real := 4.0
  const ZoomStep: real := 0.25
  const ResizeNoise: int := 10
  const LoadErrorText: string := "এই বইটি কাস্টম রিডারে লোড করা যাচ্ছে না। দয়া করে ড্রাইভ ভিউয়ার ব্যবহার করুন।"

  function Min(a: real, b: real): real { if a <= b then a else b }
  function Max(a: real, b: real): real { if a >= b then a else b }

  /** `Math.min(Math.max(1.0, s), 4.0)` */
  function ClampScale(s: real): (r: real)
    ensures MinScale <= r <= MaxScale
    ensures MinScale <= s <= MaxScale ==> r == s
    ensures s < MinScale ==> r == MinScale
    ensures s > MaxScale ==> r == MaxScale
  {
    Min(Max(MinScale, s), MaxScale)
  }

  /** The state a freshly opened reader starts in: the custom renderer on page
      1 of a document whose page count is not yet known, at fit-width scale,
      unrotated, loading, sized to the window, with no gesture under way. */
  function Init(hasDocument: bool, windowWidth: int): (r: ViewerState)
    ensures r.mode == Custom && r.hasDocument == hasDocument && r.numPages.None?
    ensures r.page == 1 && r.scale == MinScale && r.rotation == 0
    ensures r.loading && r.error.None? && r.pdfWidth == windowWidth && r.prevWidth == 0
    ensures r.pinch.None? && r.transform.None?
  {
    ViewerState(Custom, hasDocument, None, 1, 1.0, 0, true, None,
                windowWidth, 0, None, None)
  }

  /** Reachable-state invariant. */
  ghost predicate Valid(st: ViewerState)
  {
    && 1 <= st.page
    && MinScale <= st.scale <= MaxScale
    && st.rotation in {0, 90, 180, 270}
    && (st.pinch.Some? ==> st.pinch.value.dist > 0.0 && MinScale <= st.pinch.value.scale <= MaxScale)
  }

  /** `numPages || 1`: the last page, or 1 while the count is unknown (or zero). */
  function LastPage(numPages: Option<nat>): (n: int)
    ensures n >= 1
    ensures numPages.Some? && numPages.value != 0 ==> n == numPages.value
    ensures numPages.None? || numPages.value == 0 ==> n == 1
  {
    if numPages.Some? && numPages.value != 0 then numPages.value else 1
  }

  /** `changePage(offset)` */
  function ChangePage(st: ViewerState, offset: int): (r: ViewerState)
    ensures 1 <= r.page <= LastPage(st.numPages)
    ensures 1 <= st.page + offset <= LastPage(st.numPages) ==> r.page == st.page + offset
    ensures st.page + offset < 1 ==> r.page == 1
    ensures st.page + offset > LastPage(st.numPages) ==> r.page == LastPage(st.numPages)
    ensures st.numPages.None? ==> r.page == 1
    ensures r == st.(page := r.page)
  {
    var p := if st.page + offset >= 1 then st.page + offset else 1;
    st.(page := if p <= LastPage(st.numPages) then p else LastPage(st.numPages))
  }

  /** `handleZoomIn`: one step up, never past 4. */
  function ZoomIn(st: ViewerState): (r: ViewerState)
    requires MinScale <= st.scale <= MaxScale
    ensures MinScale <= r.scale <= MaxScale
    ensures st.scale <= r.scale <= st.scale + ZoomStep
    ensures r.scale < MaxScale ==> r.scale == st.scale + ZoomStep
    ensures r == st.(scale := r.scale)
  {
    st.(scale := Min(MaxScale, st.scale + ZoomStep))
  }

  /** `handleZoomOut`: one step down, never below 1. */
  function ZoomOut(st: ViewerState): (r: ViewerState)
    requires MinScale <= st.scale <= MaxScale
    ensures MinScale <= r.scale <= MaxScale
    ensures st.scale - ZoomStep <= r.scale <= st.scale
    ensures r.scale > MinScale ==> r.scale == st.scale - ZoomStep
    ensures r == st.(scale := r.scale)
  {
    st.(scale := Max(MinScale, st.scale - ZoomStep))
  }

  /** The rotate button: `(r + 90) % 360`. */
  function Rotate(st: ViewerState): (r: ViewerState)
    requires st.rotation in {0, 90, 180, 270}
    ensures r.rotation in {0, 90, 180, 270}
    ensures r.rotation != st.rotation
    ensures r.rotation == if st.rotation == 270 then 0 else st.rotation + 90
    ensures r == st.(rotation := r.rotation)
  {
    st.(rotation := (st.rotation + 90) % 360)
  }

  /** Four quarter turns bring the page back to where it was. */
  lemma RotateFourTimes(st: ViewerState)
    requires st.rotation in {0, 90, 180, 270}
    ensures Rotate(Rotate(Rotate(Rotate(st)))) == st
  {
  }

  /** The custom renderer's content element (`contentRef`) is on screen. */
  predicate ContentMounted(st: ViewerState)
  {
    st.mode == Custom && st.error.None? && st.hasDocument
  }

  /** `handleTouchStart`: two contacts record the start distance and the
      current scale; any other count drops the gesture. */
  function TouchStart(st: ViewerState, touches: nat, dist: real): (r: ViewerState)
    ensures touches == 2 ==> r.pinch == Some(PinchStart(dist, st.scale))
    ensures touches != 2 ==> r.pinch.None?
    ensures r == st.(pinch := r.pinch)
  {
    if touches == 2 then st.(pinch := Some(PinchStart(dist, st.scale)))
    else st.(pinch := None)
  }

  /** `handleTouchMove`: the ratio of the current to the start distance is shown
      as a visual transform only; the committed scale is untouched. */
  function TouchMove(st: ViewerState, touches: nat, dist: real): (r: ViewerState)
    requires st.pinch.Some? ==> st.pinch.value.dist > 0.0
    ensures r == st.(transform := r.transform)
    ensures r.scale == st.scale
    ensures touches == 2 && st.pinch.Some? && ContentMounted(st) ==>
              r.transform == Some(dist / st.pinch.value.dist)
    ensures !(touches == 2 && st.pinch.Some? && ContentMounted(st)) ==> r == st
  {
    if touches == 2 && st.pinch.Some? && ContentMounted(st) then
      st.(transform := Some(dist / st.pinch.value.dist))
    else st
  }

  /** `handleTouchEnd` (and touch cancel): commit the start scale times the
      visual ratio (1 when no `scale(...)` transform is set), clamped to [1, 4];
      reset the transform and forget the gesture. */
  function TouchEnd(st: ViewerState): (r: ViewerState)
    ensures st.pinch.Some? && ContentMounted(st) ==>
              r == st.(scale := ClampScale(st.pinch.value.scale * st.transform.GetOr(1.0)),
                       transform := None, pinch := None)
    ensures !(st.pinch.Some? && ContentMounted(st)) ==> r == st
  {
    if st.pinch.Some? && ContentMounted(st) then
      var ratio := st.transform.GetOr(1.0);
      st.(scale := ClampScale(st.pinch.value.scale * ratio), transform := None, pinch := None)
    else st
  }

  /** `handleResize`: the container (present in custom mode) is re-measured and
      the render width refitted only when the width moved by more than 10. */
  function Resize(st: ViewerState, containerWidth: int, windowWidth: int): (r: ViewerState)
    ensures st.mode == Custom && (containerWidth - st.prevWidth > ResizeNoise || st.prevWidth - containerWidth > ResizeNoise) ==>
              r == st.(pdfWidth := containerWidth - (if windowWidth < 640 then 32 else 64),
                       prevWidth := containerWidth)
    ensures st.mode == Drive || (-ResizeNoise <= containerWidth - st.prevWidth <= ResizeNoise) ==> r == st
  {
    if st.mode == Custom then
      var delta := containerWidth - st.prevWidth;
      var moved := if delta < 0 then -delta else delta;
      if moved > ResizeNoise then
        var padding := if windowWidth < 640 then 32 else 64;
        st.(pdfWidth := containerWidth - padding, prevWidth := containerWidth)
      else st
    else st
  }

  /** The same measurement twice refits at most once. */
  lemma ResizeIdempotent(st: ViewerState, w: int, windowWidth: int)
    ensures Resize(Resize(st, w, windowWidth), w, windowWidth) == Resize(st, w, windowWidth)
  {
  }

  /** `onDocumentLoadSuccess` */
  function LoadSuccess(st: ViewerState, n: nat): (r: ViewerState)
    ensures r.numPages == Some(n) && !r.loading && r.error.None?
    ensures r == st.(numPages := Some(n), loading := false, error := None)
  {
    st.(numPages := Some(n), loading := false, error := None)
  }

  /** `onDocumentLoadError` */
  function LoadError(st: ViewerState): (r: ViewerState)
    ensures !r.loading && r.error == Some(LoadErrorText)
    ensures !ContentMounted(r)
    ensures r == st.(loading := false, error := Some(LoadErrorText))
  {
    st.(loading := false, error := Some(LoadErrorText))
  }

  /** The error screen's "open in drive viewer" button; it is on screen only in
      custom mode with an error. */
  function OpenDriveViewer(st: ViewerState): (r: ViewerState)
    ensures st.mode == Custom && st.error.Some? ==> r == st.(mode := Drive)
    ensures !(st.mode == Custom && st.error.Some?) ==> r == st
  {
    if st.mode == Custom && st.error.Some? then st.(mode := Drive) else st
  }

  /** The drive viewer's "Custom Reader" button. */
  function OpenCustomReader(st: ViewerState): (r: ViewerState)
    ensures st.mode == Drive ==> r == st.(mode := Custom)
    ensures st.mode == Custom ==> r == st
  {
    if st.mode == Drive then st.(mode := Custom) else st
  }

  /** The user and platform events the reader reacts to. */
  datatype Event =
    | PageBy(offset: int)
    | ZoomInPressed
    | ZoomOutPressed
    | RotatePressed
    | TouchStarted(touches: nat, dist: real)
    | TouchMoved(touches: nat, dist: real)
    | TouchEnded
    | Resized(containerWidth: int, windowWidth: int)
    | Loaded(numPages: nat)
    | LoadFailed
    | DriveViewerChosen
    | CustomReaderChosen

  /** Distances are lengths, and a two-finger start has its fingers apart. */
  predicate WellFormed(e: Event)
  {
    match e
    case TouchStarted(t, d) => d >= 0.0 && (t == 2 ==> d > 0.0)
    case TouchMoved(_, d) => d >= 0.0
    case _ => true
  }

  /** The element that delivers `e` is on screen: the toolbar, page buttons
      and touch surface exist only in custom mode, the document reports load
      events only while mounted, and resize comes from the window. */
  predicate Delivered(st: ViewerState, e: Event)
  {
    match e
    case Resized(_, _) => true
    case Loaded(_) => ContentMounted(st)
    case LoadFailed => ContentMounted(st)
    case DriveViewerChosen => st.mode == Custom && st.error.Some?
    case CustomReaderChosen => st.mode == Drive
    case _ => st.mode == Custom
  }

  /** One event, handled only when the element that fires it is on screen. The
      document a reader shows never changes, and an event nobody can fire
      changes nothing. */
  function Step(st: ViewerState, e: Event): (r: ViewerState)
    requires Valid(st)
    ensures !Delivered(st, e) ==> r == st
    ensures r.hasDocument == st.hasDocument
    ensures WellFormed(e) ==> Valid(r)
  {
    if !Delivered(st, e) then st
    else match e
    case PageBy(k) => ChangePage(st, k)
    case ZoomInPressed => ZoomIn(st)
    case ZoomOutPressed => ZoomOut(st)
    case RotatePressed => Rotate(st)
    case TouchStarted(t, d) => TouchStart(st, t, d)
    case TouchMoved(t, d) => TouchMove(st, t, d)
    case TouchEnded => TouchEnd(st)
    case Resized(w, ww) => Resize(st, w, ww)
    case Loaded(n) => LoadSuccess(st, n)
    case LoadFailed => LoadError(st)
    case DriveViewerChosen => OpenDriveViewer(st)
    case CustomReaderChosen => OpenCustomReader(st)
  }

  /** Every handler keeps the invariant. */
  lemma StepValid(st: ViewerState, e: Event)
    requires Valid(st) && WellFormed(e)
    ensures Valid(Step(st, e))
  {
  }

  function Run(st: ViewerState, events: seq<Event>): ViewerState
    requires Valid(st)
    requires forall i :: 0 <= i < |events| ==> WellFormed(events[i])
    decreases |events|
  {
    if events == [] then st
    else
      StepValid(st, events[0]);
      Run(Step(st, events[0]), events[1..])
  }

  /** From a freshly opened reader, any sequence of events keeps the page at 1
      or more, the committed scale within [1, 4] (buttons and pinch alike) and
      the rotation a quarter turn. */
  lemma {:induction false} RunValid(st: ViewerState, events: seq<Event>)
    requires Valid(st)
    requires forall i :: 0 <= i < |events| ==> WellFormed(events[i])
    ensures Valid(Run(st, events))
    ensures Run(st, events).hasDocument == st.hasDocument
    decreases |events|
  {
    if events != [] {
      StepValid(st, events[0]);
      RunValid(Step(st, events[0]), events[1..]);
    }
  }

  /** A freshly opened reader shows page 1 at scale 1, unrotated, loading. */
  lemma InitValid(hasDocument: bool, windowWidth: int)
    ensures Valid(Init(hasDocument, windowWidth))
    ensures OnQuarterGrid(Init(hasDocument, windowWidth).scale)
  {
  }

  /** Scales reachable by the buttons alone: 1 + k/4 for k in 0..12. */
  ghost predicate OnQuarterGrid(s: real)
  {
    MinScale <= s <= MaxScale && ((s - 1.0) * 4.0).Floor as real == (s - 1.0) * 4.0
  }

  /** Button-only zooming from 1.0 stays on the quarter grid inside [1, 4]. */
  lemma {:induction false} ZoomButtonsStayOnGrid(st: ViewerState, presses: seq<bool>)
    requires OnQuarterGrid(st.scale)
    ensures OnQuarterGrid(ZoomByButtons(st, presses).scale)
    decreases |presses|
  {
    if presses != [] {
      var next := if presses[0] then ZoomIn(st) else ZoomOut(st);
      assert OnQuarterGrid(next.scale) by {
        var k := ((st.scale - 1.0) * 4.0).Floor;
        if presses[0] {
          if st.scale + ZoomStep <= MaxScale {
            assert (next.scale - 1.0) * 4.0 == (k + 1) as real;
          }
        } else {
          if st.scale - ZoomStep >= MinScale {
            assert (next.scale - 1.0) * 4.0 == (k - 1) as real;
          }
        }
      }
      ZoomButtonsStayOnGrid(next, presses[1..]);
    }
  }

  /** A run of zoom button presses (`true` = zoom in). */
  function ZoomByButtons(st: ViewerState, presses: seq<bool>): ViewerState
    requires MinScale <= st.scale <= MaxScale
    decreases |presses|
  {
    if presses == [] then st
    else ZoomByButtons(if presses[0] then ZoomIn(st) else ZoomOut(st), presses[1..])
  }

  /** A complete two-finger pinch (start at distance d0, move to d1, lift)
      commits exactly clamp(scale * d1 / d0, 1, 4), clears the gesture and the
      visual transform, and changes nothing else; the same gesture from the
      same state always commits the same scale. */
  lemma PinchCommit(st: ViewerState, d0: real, d1: real)
    requires Valid(st) && ContentMounted(st)
    requires d0 > 0.0 && d1 >= 0.0
    ensures TouchEnd(TouchMove(TouchStart(st, 2, d0), 2, d1))
              == st.(scale := ClampScale(st.scale * (d1 / d0)), pinch := None, transform := None)
  {
  }

  /** A touch start with fewer or more than two fingers abandons the gesture:
      the following lift commits nothing. */
  lemma AbandonedPinchCommitsNothing(st: ViewerState, touches: nat, dist: real)
    requires touches != 2
    ensures TouchEnd(TouchStart(st, touches, dist)) == TouchStart(st, touches, dist)
    ensures TouchEnd(TouchStart(st, touches, dist)).scale == st.scale
  {
  }

  /** Touch start never resets the visual transform, so a `scale(r)` left by an
      abandoned gesture is committed by the next two-finger tap that lifts
      without moving. */
  lemma StaleTransformIsCommitted(st: ViewerState, r: real, d: real)
    requires Valid(st) && ContentMounted(st) && st.pinch.None?
    requires st.transform == Some(r) && d > 0.0
    ensures TouchEnd(TouchStart(st, 2, d)).scale == ClampScale(st.scale * r)
  {
  }

  /** Load failure leads to the error screen; its button opens the drive viewer,
      whose own button returns to the custom reader, where the error remains. */
  lemma FallbackRoundTrip(st: ViewerState)
    requires st.mode == Custom
    ensures OpenDriveViewer(LoadError(st)).mode == Drive
    ensures OpenCustomReader(OpenDriveViewer(LoadError(st))) == LoadError(st)
    ensures !ContentMounted(OpenCustomReader(OpenDriveViewer(LoadError(st))))
  {
  }
}

=== FILE: wrappers.dfy ===
/** Optional values: the model's stand-in for JavaScript's `null` / `undefined`. */
module Wrappers {

  datatype Option<+T> = None | Some(value: T) {

    /** The wrapped value, or `default` when there is none (JavaScript's `x ?? default`). */
    function GetOr(default: T): T {
      match this
      case Some(v) => v
      case None => default
    }
  }
}
